=== FILE: README.md ===
# Music.py and EasyWav.py for MicroHydra, modelled in Dafny

Two MicroPython apps for a MicroHydra handheld play `.wav` files from the
`/sd/music` directory of an SD card:

- **Music.py** (`EasyWavMenu`, `main_loop`):
  - indexes the directory into artists, albums and songs, with a song list per artist and per album;
  - lets the user browse that index in a seven-view menu;
  - maps a chosen song title back to a file name;
  - streams the file in 1024-byte chunks to the audio output, with a play screen of track information and an `mm:ss` clock.
- **EasyWav.py** (`WavListView`, `main_loop`): shows a flat list of the `.wav` files, in a four-row window that wraps at both ends, and plays the highlighted file.

The model keeps the logic and replaces the hardware with values:

- The directory listing is an `Option<seq<string>>`; `None` means `os.listdir` raised `OSError`.
- The SD card is a map from file name to bytes.
- `random.choice` becomes an index `pick`, the key press that stops playback becomes the chunk number `interrupt`, and the millisecond clock becomes a sequence of readings.
- Python dicts are insertion-ordered sequences of entries (`AssocList`). Python's string order is code-point lexicographic order (`Ordering.StrLe`).
- Exceptions that reach the app loop (`IndexError`, `KeyError`) are values (`Menu.Outcome.Raised`, `MusicApp.Step.Crash`, `EasyWav.Step.Crash`).

Modules, one per file:

- `Wrappers`: `Option`.
- `Ordering`: string order, `list.sort()`, first-occurrence deduplication.
- `Text`: `endswith`, `split`, `rsplit('.', 1)[0]`, `lower`.
- `Wav`: `read_wav_header` and the chunk loop.
- `AssocList`: the dicts.
- `MusicLibrary`: `populate_music_lists` and `get_full_filename`.
- `PlayScreen`: the play-screen text and `format_time`.
- `Menu`: the menu state machine.
- `MusicApp`: one key of Music.py's `main_loop`, and the play-screen redraw schedule.
- `EasyWav`: all of EasyWav.py's logic.

Behaviours of the code worth knowing before reading the contracts:

- `read_wav_header` returns twice the sample-rate field.
- `read_wav_header` raises no error on a short file: it decodes whatever bytes the reads returned.
- Music.py's `.wav` test is case-sensitive. Only EasyWav.py lowers the name first.
- During playback the play screen is redrawn after a chunk exactly when the millisecond clock then reads a multiple of 1000; see Findings.

## Model

| member | source | states |
|---|---|---|
| Ordering.StrLeTotal | Music.py:209-215 | any two strings are comparable in the order `list.sort()` uses |
| Ordering.StrLeAntisymmetric | Music.py:209-215 | two strings each at most the other are equal |
| Ordering.StrLeTransitive | Music.py:209-215 | the string order is transitive |
| Ordering.Insert | Music.py:209-215 | inserting into a sorted list keeps it sorted, adds exactly that one value, and keeps it duplicate-free when the value was new |
| Ordering.Sort | Music.py:209-215 | `list.sort()` yields a sorted permutation of the list, with the same members, and keeps a duplicate-free list duplicate-free |
| Ordering.Dedup | Music.py:194-203 | appending a value only when it is absent leaves a duplicate-free list holding exactly the values seen |
| Text.Find | Music.py:190 | finds the first occurrence of the separator, and finds none exactly when it does not occur |
| Text.Split | Music.py:190 | `str.split(sep)` gives at least one part |
| Text.FindIffContains | Music.py:190 | the search finds the separator exactly when the string contains it |
| Text.SplitWhole | Music.py:190 | a string splits into one part exactly when the separator is not found, and that part is the whole string |
| Text.SplitCutsLeftmost | Music.py:190 | when a string splits into more than one part, the first part ends at the separator's first occurrence and the rest is the split of what follows it |
| Text.SplitLeftmostExample | Music.py:190 | "x - - y" splits on " - " into "x" and "- y" |
| Text.SplitPiecesClean | Music.py:190 | no part of a split contains the separator |
| Text.JoinSplit | Music.py:190 | joining the parts of a split with the separator gives back the string |
| Text.SplitThree | Music.py:190 | three parts none of which contains the separator's first character (for " - ", no part contains a space), joined by the separator, split back into those three parts |
| Text.BeforeLastDot | Music.py:107 | `rsplit('.', 1)[0]` is the whole string exactly when it has no '.', and otherwise the prefix before a '.' that has no '.' after it |
| Text.BeforeLastDotOf | Music.py:107 | the prefix before ".y", where y has no '.', is what precedes it |
| Text.WavSuffixAnyCase | EasyWav.py:104 | a lower-cased name ends in ".wav" exactly when the name's last four characters are '.', then 'w' or 'W', 'a' or 'A', 'v' or 'V' |
| Wav.Read | Music.py:79-82 | `file.read(n)` returns at most n bytes, at least one unless at the end, the file's bytes from the position clipped at its end, and advances the position by its length |
| Wav.LittleEndianRoundTrip | Music.py:84 | `int.from_bytes(..., 'little')` reads back every number written in k little-endian bytes |
| Wav.ReadWavHeader | Music.py:78-85 | leaves the position after 44 bytes, or at the end of a shorter file; on 28 bytes or more returns twice the little-endian u32 at bytes 24..27; on 25 to 27 bytes returns twice the little-endian value of the bytes from 24 on; returns 0 on 24 bytes or fewer; never fails |
| Wav.HeaderOfRate | EasyWav.py:65-72 | a header whose bytes 24..27 encode `rate` reads as twice that rate, with the position at 44 |
| Wav.Pump | Music.py:407-421 | the chunk loop writes nothing exactly when the position is at or past the end, and every chunk holds 1 to 1024 bytes |
| Wav.PumpChunkSizes | Music.py:407-421 | every chunk written is non-empty and at most 1024 bytes, and all but the last are exactly 1024 |
| Wav.PumpWritesRest | Music.py:401-421 | with no key pressed, the chunks concatenate to exactly the rest of the file |
| Wav.PumpInterrupted | Music.py:407-421 | with a key seen after chunk k, at most k+1 chunks are written, a prefix of the rest of the file: exactly the first k+1 full chunks, or the whole rest when fewer remain |
| Wav.PumpInterruptedExact | Music.py:407-421 | a key seen after chunk k leaves written exactly the bytes from the start position up to k+1 chunks further on, or up to the end of the file if that comes first |
| Wav.PumpPastEnd | EasyWav.py:193-196 | streaming from the end of the file writes nothing |
| AssocList.Lookup | Music.py:287 | `d[k]` is found exactly when k is a key |
| AssocList.LookupFindsEntry | Music.py:287 | a found list is the list of an entry with that key |
| AssocList.LookupOwnKey | Music.py:287 | with unique keys, an entry's key looks up that entry's list |
| AssocList.Put | Music.py:197-201 | `d[k] = v` adds k at the end only when it is new, maps k to v and leaves every other key's list alone |
| AssocList.AppendTo | Music.py:205-206 | `d[k].append(v)` keeps the keys, extends k's list by v and leaves every other list alone |
| AssocList.LookupMapValues | Music.py:212-215 | after mapping every list, each key holds the image of its old list |
| AssocList.SortValues | Music.py:212-215 | `for k in d: d[k].sort()` keeps the keys in order and sorts each list |
| AssocList.FirstContaining | Music.py:244-246 | the key of an entry whose list holds the title while no earlier entry's list does, so the first such key in iteration order; none exactly when no list holds it |
| AssocList.FirstContainingAt | Music.py:244-246 | the search returns the key of the first entry whose list holds the title |
| AssocList.FirstContainingUnique | Music.py:244-246 | when only one key's list holds the title, the search returns that key |
| MusicLibrary.FileName | Music.py:248 | the name `f"{artist} - {album} - {song}.wav"` ends in ".wav" and, without it, is the three parts joined by " - " |
| MusicLibrary.ParseTrackFileName | Music.py:189-193 | a name read as a track is rebuilt exactly by the format `get_full_filename` uses |
| MusicLibrary.ParsedPartsClean | Music.py:190-191 | no part of a parsed name contains " - " |
| MusicLibrary.FileNameParses | Music.py:189-193 | a track with space-free parts is read back from its own file name |
| MusicLibrary.InTracks | Music.py:188-193 | a track is in the listing's tracks exactly when some listed name parses to it |
| MusicLibrary.TrackFromName | Music.py:188-193 | every indexed track comes from some listed name |
| MusicLibrary.NameGivesTrack | Music.py:188-193 | every listed name that reads as a track puts that track in the index |
| MusicLibrary.InSongsWith | Music.py:204-206 | a title is in the songs filed under a key exactly when some track has that key and that title |
| MusicLibrary.AddTrack | Music.py:194-206 | a track adds its artist, album and song to the flat lists only when new, and appends its song under its artist and its album, creating empty lists for new keys |
| MusicLibrary.AddFile | Music.py:188-206 | a name with the exact suffix ".wav" and three parts adds its track; any other name changes nothing |
| MusicLibrary.Scan | Music.py:188-206 | the scan keeps the flat artist and album lists equal to the keys of their dicts |
| MusicLibrary.ScanIndexes | Music.py:188-206 | before sorting, the flat lists are the first occurrences of the listing's artists, albums and songs; each key holds the songs of its tracks in listing order, duplicates kept |
| MusicLibrary.Finalize | Music.py:209-215 | the sort step sorts the three flat lists as permutations, keeps each dict's keys in their order, and sorts every per-key list as a permutation |
| MusicLibrary.Populate | Music.py:217-218 | an unreadable directory leaves every list empty |
| MusicLibrary.PopulateSorted | Music.py:209-215 | after a rebuild, the artist, album and song lists are sorted without repeats, the dict keys are exactly the artist (album) list, and every per-key list is sorted |
| MusicLibrary.PopulateIndexes | Music.py:188-215 | after a rebuild, an artist (album) is listed exactly when some track has it, and its list is the sorted list of the songs of all its tracks, duplicates kept |
| MusicLibrary.PopulateKeyOrder | Music.py:192-215 | the dicts keep their keys in first-occurrence order; sorting the artist list does not reorder the dict |
| MusicLibrary.ResolveFrom | Music.py:243-249 | pairs the first artist holding the title with the first album holding it, or none when either is missing |
| MusicLibrary.FullFilename | Music.py:243-249 | none exactly when no artist list or no album list holds the title; otherwise a name ending in ".wav" |
| MusicLibrary.OnlyOwnKeyHoldsSong | Music.py:243-249 | a key whose list holds a title that only one file carries is that file's own key |
| MusicLibrary.UniqueTitleKeys | Music.py:243-249 | for a title only one file carries, the first artist and the first album found are that file's |
| MusicLibrary.UniqueTitleResolves | Music.py:243-249 | a title carried by exactly one indexed file resolves to that file's name |
| MusicLibrary.CarriedTitleResolves | Music.py:243-249 | every title some indexed file carries resolves to a name |
| MusicLibrary.ListedTitlesResolve | Music.py:294-298 | every title in the song list resolves to a name, so selecting it plays |
| MusicLibrary.TracksOfFileNames | Music.py:188-193 | a listing of the names of space-free tracks indexes exactly those tracks |
| MusicLibrary.ResolutionCanMixFiles | Music.py:243-249 | the artist and the album are searched independently, so a title can resolve to a name pairing one file's artist with another file's album |
| MusicLibrary.MixedNameNotListed | Music.py:243-249 | the name resolved in that case belongs to no listed file |
| MusicLibrary.ArtistListKeepsDuplicates | Music.py:204-205 | a listing of two files of one artist with the same title puts the title twice in that artist's list |
| MusicLibrary.TwinsListed | Music.py:188-193 | such a listing exists: the names of the two files index exactly those two tracks |
| PlayScreen.Truncate | Music.py:128-129 | a line longer than 30 characters becomes its first 27 characters followed by "...", 30 in all; a line of at most 30 is kept |
| PlayScreen.TruncateIdempotent | Music.py:128-129 | truncating a truncated line changes nothing |
| PlayScreen.PlayInfo | Music.py:107-117 | three lines "Artist: ", "Album: ", "Song: " with the three parts when the name before its last '.' splits on " - " into exactly three, and otherwise the one line "Playing: " and the whole name |
| PlayScreen.DisplayLines | Music.py:123-131 | every line drawn fits in 30 characters and is the truncation of its information line |
| PlayScreen.PlayInfoOfTrack | Music.py:107-117 | the play screen of every name the library accepts as a track shows that track's artist, album and song |
| PlayScreen.PlayInfoOfPlainName | Music.py:115-116 | a name without '.' or space is shown whole on one "Playing:" line |
| PlayScreen.Decimal | Music.py:158 | `str(n)` is a non-empty run of digits with no leading zero, one digit exactly when n < 10 |
| PlayScreen.DecimalRoundTrip | Music.py:158 | the digits of n read back as n |
| PlayScreen.Pad2 | Music.py:158 | `{n:02d}` is at least two characters, exactly two digits for 0..99, and starts with '-' exactly when n is negative |
| PlayScreen.Pad2RoundTrip | Music.py:158 | a padded non-negative number reads back as itself |
| PlayScreen.FormatTime | Music.py:156-158 | the clock has a colon three from the end and two digits after it, and is exactly five characters below 100 minutes |
| PlayScreen.FormatTimeRoundTrip | Music.py:156-158 | the minutes before the colon and the seconds after it give back the time |
| PlayScreen.FormatTimeSign | Music.py:156-158 | the clock starts with '-' exactly when the time is negative |
| Menu.InitialValid | Music.py:161-176 | the initial menu shows the main items from the first row |
| Menu.PopulateIndexed | Music.py:179-218 | a rebuilt index has its artist and album lists equal to its dict keys, as the menu needs |
| Menu.MoveUp | Music.py:317-324 | moves the cursor one row up and keeps it on screen; on the first row with the window at the top nothing changes |
| Menu.MoveDown | Music.py:326-330 | moves the cursor one row down and keeps it on screen; on the last row nothing changes, with no wrap-around |
| Menu.ShufflePlay | Music.py:301-308 | with no titles nothing plays; otherwise the title at `pick` modulo the number of titles is taken, and the file it resolves to plays, exactly when it resolves |
| Menu.ShuffleAlwaysPlays | Music.py:301-308 | on a rebuilt index with titles, shuffle always plays |
| Menu.SelectItem | Music.py:251-299 | main: "Library" opens the submenu, "Shuffle" shuffles, "Settings" redraws, and a cursor past the items raises `IndexError`; submenu: row 0, 1, 2 open the artists, albums, songs list; artists (albums): the highlighted key opens its song list, `KeyError` when it is no key; song lists and songs raise `IndexError` past the end; every view change starts from the first row |
| Menu.GoBack | Music.py:332-351 | goes up one level from the first row (submenu to main; artists, albums or songs to the submenu; an artist's or album's songs to artists or albums, clearing the choice); fails only in the main view, changing nothing |
| Menu.HandleInput | Music.py:353-367 | ";" moves up, "." moves down, ENT/SPC select, the back keys go back or exit in the main view, and any other key changes nothing |
| Menu.MovesPreserveValid | Music.py:317-330 | moving keeps the cursor on the list and on screen |
| Menu.BackPreservesValid | Music.py:332-351 | going back keeps the menu in a reachable state |
| Menu.SelectPreservesValid | Music.py:251-299 | selecting keeps the menu in a reachable state |
| Menu.SelectRaisesOnEmptyList | Music.py:283-295 | on a rebuilt index, selecting raises exactly in a list view showing an empty list, and only `IndexError` |
| Menu.SelectSong | Music.py:294-299 | selecting a title plays exactly when it resolves, the file it resolves to, and otherwise asks for a redraw; the menu does not change |
| Menu.HandleInputPreservesValid | Music.py:353-367 | every key keeps the menu reachable, and no key returns "select" |
| MusicApp.Sound | Music.py:384-389 | a click sound for up, down and back; the select sound plays exactly for the "select" action |
| MusicApp.PlayFile | Music.py:391-425 | a file plays exactly when it opens and its header rate is not zero (a zero rate raises in the duration division); it streams from byte 44; the clock gives one reading per chunk, the redraw list stops at the shorter of the clock readings and the chunks, and chunk i is followed by a redraw exactly when its reading is a multiple of 1000 |
| MusicApp.PlayFileWrites | Music.py:401-421 | what a playback writes is well-sized, a prefix of the samples, and all of them without a key press |
| MusicApp.PlayFileOfRate | Music.py:395-401 | a file whose header encodes a rate other than 0 plays from byte 44 |
| MusicApp.StepKey | Music.py:381-431 | a step that goes on never plays the select sound |
| MusicApp.StepKeyFollowsInput | Music.py:381-431 | a key crashes exactly when `handle_input` raises, quits exactly on "exit", moves to the menu `handle_input` leaves, plays exactly for a play action, the playback being that of the action's file, and plays the notes of the action |
| MusicApp.RunKeys | Music.py:380-431 | a batch of keys stops early only at a step that ends the app, every earlier step goes on, and none plays the select sound |
| MusicApp.RunKeysFollowsKeys | Music.py:380-431 | the first step of a batch is the step of its first key on the starting menu, and every later step is the step of its key on the menu the previous step left |
| MusicApp.RunKeysEndMenu | Music.py:380-431 | a batch ends in the menu its last step left when that step goes on, and otherwise in the menu from before that step |
| MusicApp.RunKeysPreservesValid | Music.py:380-431 | a batch of keys keeps the menu reachable |
| MusicApp.AsWrittenSpaced | Music.py:417 | two redraws of the test as written at different readings are at least 1000 ms apart |
| MusicApp.AsWrittenSkipsRedraw | Music.py:417 | clock readings over two seconds can miss every multiple of 1000, so the screen is never redrawn |
| MusicApp.Redraws | Music.py:416-418 | with the intended test, the first chunk redraws exactly when 1000 ms have passed since the start, and every redraw comes at least 1000 ms after the start |
| MusicApp.WindowHasRedraw | Music.py:35 | with the intended test, every stretch of readings spanning 1000 ms contains a redraw |
| MusicApp.RedrawsSpaced | Music.py:35 | with the intended test, any two redraws are at least 1000 ms apart, whatever the order of the readings |
| EasyWav.WavNames | EasyWav.py:104 | keeps exactly the names whose lower-cased form ends in ".wav" |
| EasyWav.LoadWavFiles | EasyWav.py:102-108 | the items are exactly the listed ".wav" names, any case; none when the listing fails |
| EasyWav.WavNamesAppend | EasyWav.py:104 | filtering keeps listing order: filtering two parts of a listing is filtering each |
| EasyWav.WavNamesIdempotent | EasyWav.py:104 | filtering the kept names again keeps them all |
| EasyWav.LoadedViewValid | EasyWav.py:95-108 | the view built at start, with the cursor and window at 0, holds the loaded items and is valid |
| EasyWav.ViewToCursor | EasyWav.py:147-151 | always puts the cursor inside the four-row window; keeps the window when the cursor is already in it; otherwise scrolls just enough to put the cursor on the top or the bottom row |
| EasyWav.Up | EasyWav.py:137-140 | on an empty list nothing changes; otherwise the cursor moves one item back, from the first to the last |
| EasyWav.Down | EasyWav.py:142-145 | on an empty list nothing changes; otherwise the cursor moves one item forward, from the last to the first |
| EasyWav.MovesKeepViewValid | EasyWav.py:137-151 | both moves keep the cursor on the list and inside a window that is full unless it starts at the top |
| EasyWav.UpDownInverse | EasyWav.py:137-145 | up undoes down and down undoes up, as far as the cursor goes |
| EasyWav.DownWrapsToStart | EasyWav.py:144-151 | going down from the last item shows the list from its first item |
| EasyWav.UpWrapsToEnd | EasyWav.py:139-151 | going up from the first item puts the cursor on the last item and the window at max(0, n - 4) |
| EasyWav.ScrollbarHeight | EasyWav.py:130-131 | a scrollbar only for more than four items, of height `135 // (n - 3)`, at most 67 |
| EasyWav.PlayWav | EasyWav.py:175-202 | a file plays exactly when it opens; the play screen shows its information lines and the stream starts after the header, at byte 44 |
| EasyWav.PlayWavWritesSamples | EasyWav.py:193-200 | with no key pressed, the whole sample data after the header is written |
| EasyWav.HandleKey | EasyWav.py:166-207 | ";" and "." move with their beeps, ENT/SPC on an empty list do nothing and otherwise play the highlighted file, with the select sound exactly when it opens, "GO" ends the app, and other keys do nothing |
| EasyWav.HandleKeyKeepsViewValid | EasyWav.py:166-207 | on a valid view no key crashes and every key keeps the view valid |
| EasyWav.HandleKeyPlaysHighlighted | EasyWav.py:173-188 | ENT/SPC on a valid non-empty list play the highlighted file, with its information lines shown |
| EasyWav.RunKeys | EasyWav.py:165-207 | a batch stops early only at a step that ends the app, every earlier step goes on, and the items never change |
| EasyWav.RunKeysFollowsKeys | EasyWav.py:165-207 | the first step of a batch is the step of its first key on the starting view, and every later step is the step of its key on the view the previous step left |
| EasyWav.RunKeysEndView | EasyWav.py:165-207 | a batch ends in the view its last step left when that step goes on, and otherwise in the view from before that step |
| EasyWav.RunKeysKeepsViewValid | EasyWav.py:165-207 | a batch of keys on a valid view never crashes and keeps the view valid |

## Left out

- Hardware is not modelled: the display, SPI, I2S set-up and `deinit`, SD mount and unmount, the beeper and the overlay. These are foreign drivers; only the sounds and lines they would be given are modelled.
- `setup_i2s` may reject a sample rate. The I2S driver is not part of this model, so a playback with rate 0 in EasyWav.py is modelled as going ahead.
- Pixel drawing is not modelled: `draw`, `_draw_items`, the progress bar and the scrollbar position. Only the text and arithmetic they draw from are.
- Floating point is not modelled: the duration, the progress fraction, `scrollbar_y`, `ease_in_out_sine`, `ping_pong_ease` and the text-scroll offset.
- PlayScreen.FormatTime: takes an integer number of seconds, so the `int()` truncation of a float position is not modelled.
- Sleeps and the "coming soon" message's two-second wait are not modelled; the message becomes a redraw action.
- MicroPython's `ticks_ms` wraps around. The clock readings are plain naturals, so MusicApp.Redraws and MusicApp.WindowHasRedraw do not cover a wrap during playback.
- The top-level exception handler of both apps is not modelled: it shows the error and unmounts. A raised step ends the run (`Crash`).
- The text of the playback error overlay (`str(e)[:20]`) is not modelled; a failed playback is `Failed` or `OpenError`.
- The `else` branch of the library submenu (Music.py:280-281) is not modelled, because the submenu items are fixed and it cannot be reached.
- The truthiness test on `full_filename` is modelled as `Some`, because a resolved name always ends in ".wav" and is never empty.
- The keyboard driver is not part of this model. Whether a key pressed during playback reaches the next batch is up to that driver, so each batch of keys is an input of the model.

## Findings

| source | as written | input that shows it | evidently intended | confidence | as-written member | corrected member |
|---|---|---|---|---|---|---|
| Music.py:417 | the play screen is redrawn after a chunk only when `time.ticks_ms() % 1000 == 0` | clock readings 1, 999, 1001, 1999, 2001 ms after the chunks of a 2-second playback: no reading is a multiple of 1000, so the screen is never redrawn | redraw once `_UPDATE_INTERVAL` (1000 ms, Music.py:35, otherwise unused) has passed since the last redraw | medium, not executed | MusicApp.AsWrittenSkipsRedraw | MusicApp.WindowHasRedraw |

=== FILE: assoc.dfy ===
/**
 * Python dicts from a name to a list of song titles, as the music index
 * uses them: insertion-ordered sequences of entries. Iterating a dict
 * visits its keys in insertion order, which is the order kept here.
 */
module AssocList {
  import opened Wrappers
  import opened Ordering

  datatype Entry = Entry(key: string, values: seq<string>)

  /** The keys in iteration (insertion) order. */
  function Keys(m: seq<Entry>): (ks: seq<string>)
    ensures |ks| == |m|
    ensures forall i :: 0 <= i < |m| ==> ks[i] == m[i].key
  {
    seq(|m|, i requires 0 <= i < |m| => m[i].key)
  }

  /** `d.get(k)`: the list stored under the first entry with key `k`. */
  function Lookup(m: seq<Entry>, k: string): (r: Option<seq<string>>)
    ensures r.Some? <==> k in Keys(m)
  {
    if |m| == 0 then None
    else if m[0].key == k then Some(m[0].values)
    else
      assert Keys(m) == [m[0].key] + Keys(m[1..]);
      Lookup(m[1..], k)
  }

  /** A found list is the list of an actual entry for that key. */
  lemma {:induction false} LookupFindsEntry(m: seq<Entry>, k: string)
    requires Lookup(m, k).Some?
    ensures exists i :: 0 <= i < |m| && m[i] == Entry(k, Lookup(m, k).value)
  {
    if m[0].key != k {
      LookupFindsEntry(m[1..], k);
      var i :| 0 <= i < |m[1..]| && m[1..][i] == Entry(k, Lookup(m[1..], k).value);
      assert m[i + 1] == m[1..][i];
    }
  }

  /** Looking up in a list with one more entry at the front. */
  lemma LookupCons(e: Entry, m: seq<Entry>, j: string)
    ensures Lookup([e] + m, j) == if e.key == j then Some(e.values) else Lookup(m, j)
  {
    assert ([e] + m)[1..] == m;
  }

  /** With unique keys, looking up an entry's key finds that entry's list. */
  lemma {:induction false} LookupOwnKey(m: seq<Entry>, i: nat)
    requires NoDup(Keys(m)) && i < |m|
    ensures Lookup(m, m[i].key) == Some(m[i].values)
  {
    if i > 0 {
      assert Keys(m)[0] != Keys(m)[i];
      assert Keys(m[1..]) == Keys(m)[1..];
      assert NoDup(Keys(m[1..])) by {
        forall p, q | 0 <= p < q < |m[1..]| ensures Keys(m[1..])[p] != Keys(m[1..])[q] {
          assert Keys(m)[p + 1] != Keys(m)[q + 1];
        }
      }
      LookupOwnKey(m[1..], i - 1);
      assert m[1..][i - 1] == m[i];
    }
  }

  /** `d[k] = v`: overwrite the entry for `k` in place, or add it at the end. */
  function Put(m: seq<Entry>, k: string, v: seq<string>): (r: seq<Entry>)
    ensures Keys(r) == if k in Keys(m) then Keys(m) else Keys(m) + [k]
    ensures forall j :: Lookup(r, j) == if j == k then Some(v) else Lookup(m, j)
  {
    if |m| == 0 then [Entry(k, v)]
    else if m[0].key == k then
      assert Keys([Entry(k, v)] + m[1..]) == Keys(m);
      assert m == [m[0]] + m[1..];
      assert forall j :: Lookup([Entry(k, v)] + m[1..], j) == if j == k then Some(v) else Lookup(m, j) by {
        forall j ensures Lookup([Entry(k, v)] + m[1..], j) == if j == k then Some(v) else Lookup(m, j) {
          LookupCons(Entry(k, v), m[1..], j);
          LookupCons(m[0], m[1..], j);
        }
      }
      [Entry(k, v)] + m[1..]
    else
      assert Keys(m) == [m[0].key] + Keys(m[1..]);
      assert m == [m[0]] + m[1..];
      var rest := Put(m[1..], k, v);
      assert Keys([m[0]] + rest) == [m[0].key] + Keys(rest);
      assert forall j :: Lookup([m[0]] + rest, j) == if j == k then Some(v) else Lookup(m, j) by {
        forall j ensures Lookup([m[0]] + rest, j) == if j == k then Some(v) else Lookup(m, j) {
          LookupCons(m[0], rest, j);
          LookupCons(m[0], m[1..], j);
        }
      }
      [m[0]] + rest
  }

  /** `d[k].append(v)` for a key already present. */
  function AppendTo(m: seq<Entry>, k: string, v: string): (r: seq<Entry>)
    requires k in Keys(m)
    ensures Keys(r) == Keys(m)
    ensures forall j :: Lookup(r, j) == if j == k then Some(Lookup(m, k).value + [v]) else Lookup(m, j)
  {
    Put(m, k, Lookup(m, k).value + [v])
  }

  /** Replaces every list by its image under `f`, keeping keys and their order. */
  function MapValues(m: seq<Entry>, f: seq<string> -> seq<string>): (r: seq<Entry>)
    ensures Keys(r) == Keys(m)
  {
    if |m| == 0 then [] else [Entry(m[0].key, f(m[0].values))] + MapValues(m[1..], f)
  }

  /** After mapping the values, each key maps to the image of its old list. */
  lemma {:induction false} LookupMapValues(m: seq<Entry>, f: seq<string> -> seq<string>, j: string)
    ensures Lookup(MapValues(m, f), j) == if j in Keys(m) then Some(f(Lookup(m, j).value)) else None
  {
    if |m| > 0 {
      assert m == [m[0]] + m[1..];
      LookupCons(Entry(m[0].key, f(m[0].values)), MapValues(m[1..], f), j);
      LookupCons(m[0], m[1..], j);
      LookupMapValues(m[1..], f, j);
    }
  }

  /** `for k in d: d[k].sort()`. */
  function SortValues(m: seq<Entry>): (r: seq<Entry>)
    ensures Keys(r) == Keys(m)
    ensures forall j :: Lookup(r, j) == if j in Keys(m) then Some(Sort(Lookup(m, j).value)) else None
  {
    var r := MapValues(m, Sort);
    forall j ensures Lookup(r, j) == if j in Keys(m) then Some(Sort(Lookup(m, j).value)) else None {
      LookupMapValues(m, Sort, j);
    }
    r
  }

  /** Entry `i` is the first whose list holds `s`. */
  predicate FirstHolding(m: seq<Entry>, s: string, i: int) {
    0 <= i < |m| && s in m[i].values && forall j :: 0 <= j < i ==> s !in m[j].values
  }

  /** The first key, in iteration order, whose list contains `s`. */
  function FirstContaining(m: seq<Entry>, s: string): (r: Option<string>)
    ensures r.Some? ==> exists i :: FirstHolding(m, s, i) && m[i].key == r.value
    ensures r.None? <==> forall i :: 0 <= i < |m| ==> s !in m[i].values
  {
    if |m| == 0 then None
    else if s in m[0].values then Some(m[0].key)
    else
      var r := FirstContaining(m[1..], s);
      assert forall i :: 1 <= i < |m| ==> m[i] == m[1..][i - 1];
      assert r.Some? ==> exists i :: FirstHolding(m, s, i) && m[i].key == r.value by {
        if r.Some? {
          var k :| FirstHolding(m[1..], s, k) && m[1..][k].key == r.value;
          assert m[k + 1].key == r.value && s in m[k + 1].values;
          forall j | 0 <= j < k + 1 ensures s !in m[j].values {
            if j > 0 { assert m[j] == m[1..][j - 1]; }
          }
          assert FirstHolding(m, s, k + 1);
        }
      }
      r
  }

  /** The search stops at the first entry whose list holds `s`. */
  lemma {:induction false} FirstContainingAt(m: seq<Entry>, s: string, i: nat)
    requires i < |m| && s in m[i].values
    requires forall j :: 0 <= j < i ==> s !in m[j].values
    ensures FirstContaining(m, s) == Some(m[i].key)
  {
    if i > 0 {
      assert s !in m[0].values;
      assert m[1..][i - 1] == m[i];
      FirstContainingAt(m[1..], s, i - 1);
    }
  }

  /** When exactly one key's list contains `s`, the search finds that key. */
  lemma {:induction false} FirstContainingUnique(m: seq<Entry>, s: string, k: string)
    requires Lookup(m, k).Some? && s in Lookup(m, k).value
    requires forall i :: 0 <= i < |m| && s in m[i].values ==> m[i].key == k
    ensures FirstContaining(m, s) == Some(k)
  {
    LookupFindsEntry(m, k);
    var i :| 0 <= i < |m| && m[i] == Entry(k, Lookup(m, k).value);
    var r := FirstContaining(m, s);
    assert r.Some?;
    var j :| 0 <= j < |m| && m[j].key == r.value && s in m[j].values;
  }
}

=== FILE: easywav.dfy ===
/**
 * EasyWav (EasyWav.py): a flat list of the `.wav` files in the music
 * directory, a four-row window over it that wraps at both ends, and a
 * player that streams the selected file until it ends or a key is pressed.
 */
module EasyWav {
  import opened Wrappers
  import opened Text
  import opened Wav
  import opened PlayScreen
  import MusicApp

  const DisplayHeight := 135
  const CharHeight := 32
  /** Rows of the large font on the screen: 135 / 32 = 4 (EasyWav.py:21). */
  const ItemsPerScreen := DisplayHeight / CharHeight

  /** The files the list keeps: a lower-cased name ending in ".wav". */
  predicate IsWavName(name: string) {
    EndsWith(Lower(name), ".wav")
  }

  /** The names of a listing that pass `IsWavName`, in listing order. */
  function WavNames(names: seq<string>): (kept: seq<string>)
    ensures |kept| <= |names|
    ensures forall f :: f in kept <==> f in names && IsWavName(f)
  {
    if |names| == 0 then []
    else if IsWavName(names[0]) then [names[0]] + WavNames(names[1..])
    else WavNames(names[1..])
  }

  /**
   * `load_wav_files` (EasyWav.py:102-108): the `.wav` names of the listing
   * of the music directory, or no items when the listing fails.
   */
  function LoadWavFiles(listing: Option<seq<string>>): (items: seq<string>)
    ensures listing.None? ==> items == []
    ensures forall f :: f in items <==> listing.Some? && f in listing.value && IsWavName(f)
  {
    match listing
    case None => []
    case Some(names) => WavNames(names)
  }

  /** Filtering a listing in two parts is filtering each part: the listing order is kept. */
  lemma {:induction false} WavNamesAppend(a: seq<string>, b: seq<string>)
    ensures WavNames(a + b) == WavNames(a) + WavNames(b)
  {
    if |a| > 0 {
      assert (a + b)[0] == a[0] && (a + b)[1..] == a[1..] + b;
      WavNamesAppend(a[1..], b);
      if IsWavName(a[0]) {
        assert WavNames(a + b) == [a[0]] + (WavNames(a[1..]) + WavNames(b));
      }
    } else {
      assert a + b == b;
    }
  }

  /** Loading a listing made only of the loaded items gives them back unchanged. */
  lemma {:induction false} WavNamesIdempotent(names: seq<string>)
    ensures WavNames(WavNames(names)) == WavNames(names)
  {
    if |names| > 0 {
      WavNamesIdempotent(names[1..]);
      if IsWavName(names[0]) {
        assert ([names[0]] + WavNames(names[1..]))[1..] == WavNames(names[1..]);
      }
    }
  }

  /** `WavListView`: the items, the first visible row and the highlighted row. */
  datatype ListView = ListView(items: seq<string>, top: nat, cursor: nat)

  /** The view `__init__` and `load_wav_files` leave: the items, shown from the first row. */
  function InitialView(items: seq<string>): ListView {
    ListView(items, 0, 0)
  }

  /**
   * The invariant the view keeps: the cursor is on an item (or 0 on an
   * empty list), it is inside the visible window, and the window is full
   * unless it starts at the first item.
   */
  predicate ViewValid(v: ListView) {
    && (v.cursor < |v.items| || v.cursor == 0)
    && v.top <= v.cursor < v.top + ItemsPerScreen
    && (v.top == 0 || v.top + ItemsPerScreen <= |v.items|)
  }

  /** The view the app starts from is valid, whatever the listing held or whether it failed. */
  lemma LoadedViewValid(listing: Option<seq<string>>)
    ensures ViewValid(InitialView(LoadWavFiles(listing)))
    ensures InitialView(LoadWavFiles(listing)).items == LoadWavFiles(listing)
  {
  }

  /**
   * `view_to_cursor` (EasyWav.py:147-151): scroll just far enough that the
   * cursor is visible, putting it on the top row when it went above the
   * window and on the bottom row when it went below.
   */
  function ViewToCursor(v: ListView): (r: ListView)
    ensures r.items == v.items && r.cursor == v.cursor
    ensures r.top <= r.cursor < r.top + ItemsPerScreen
    ensures v.top <= v.cursor < v.top + ItemsPerScreen ==> r == v
    ensures v.cursor < v.top ==> r.top == r.cursor
    ensures v.cursor >= v.top + ItemsPerScreen ==> r.top + ItemsPerScreen - 1 == r.cursor
  {
    var top := if v.cursor < v.top then v.cursor else v.top;
    var top := if v.cursor >= top + ItemsPerScreen then v.cursor - ItemsPerScreen + 1 else top;
    v.(top := top)
  }

  /** Python's `k % n` for `k` from -1 to `n`: the cursor arithmetic of `up` and `down`. */
  lemma WrapStep(k: int, n: nat)
    requires n > 0
    ensures 0 <= k % n < n
    ensures 0 <= k < n ==> k % n == k
    ensures k == -1 ==> k % n == n - 1
    ensures k == n ==> k % n == 0
  {
    if k == -1 {
      assert k == (-1) * n + (n - 1);
    } else if k == n {
      assert k == 1 * n + 0;
    }
  }

  /**
   * `up` (EasyWav.py:137-140): on a non-empty list, move the cursor one
   * item back, from the first item round to the last (Python's `%` with a
   * positive divisor is Dafny's).
   */
  function Up(v: ListView): (r: ListView)
    ensures r.items == v.items
    ensures |v.items| == 0 ==> r == v
    ensures 0 < v.cursor < |v.items| ==> r.cursor + 1 == v.cursor
    ensures v.cursor == 0 < |v.items| ==> r.cursor == |v.items| - 1
  {
    if |v.items| == 0 then v
    else
      WrapStep(v.cursor - 1, |v.items|);
      ViewToCursor(v.(cursor := (v.cursor - 1) % |v.items|))
  }

  /**
   * `down` (EasyWav.py:142-145): on a non-empty list, move the cursor one
   * item forward, from the last item round to the first.
   */
  function Down(v: ListView): (r: ListView)
    ensures r.items == v.items
    ensures |v.items| == 0 ==> r == v
    ensures v.cursor + 1 < |v.items| ==> r.cursor == v.cursor + 1
    ensures v.cursor + 1 == |v.items| ==> r.cursor == 0
  {
    if |v.items| == 0 then v
    else
      WrapStep(v.cursor + 1, |v.items|);
      ViewToCursor(v.(cursor := (v.cursor + 1) % |v.items|))
  }

  /** Both moves keep the view invariant. */
  lemma MovesKeepViewValid(v: ListView)
    requires ViewValid(v)
    ensures ViewValid(Up(v)) && ViewValid(Down(v))
  {
  }

  /** On a valid view, `up` undoes `down` and `down` undoes `up`, as far as the cursor goes. */
  lemma UpDownInverse(v: ListView)
    requires ViewValid(v)
    ensures Up(Down(v)).cursor == v.cursor
    ensures Down(Up(v)).cursor == v.cursor
  {
  }

  /** Wrapping down from the last item shows the list from its start. */
  lemma DownWrapsToStart(v: ListView)
    requires ViewValid(v) && |v.items| > 0 && v.cursor == |v.items| - 1
    ensures Down(v) == ListView(v.items, 0, 0)
  {
  }

  /** Wrapping up from the first item shows the last full window. */
  lemma UpWrapsToEnd(v: ListView)
    requires ViewValid(v) && |v.items| > 0 && v.cursor == 0
    ensures var n := |v.items|;
      Up(v) == ListView(v.items, if n > ItemsPerScreen then n - ItemsPerScreen else 0, n - 1)
  {
  }

  /**
   * The scrollbar (EasyWav.py:130-131): drawn only when the list overflows
   * the window, with height `135 // (n - 4 + 1)`, the screen shared
   * between the `n - 3` possible window positions.
   */
  function ScrollbarHeight(n: nat): (h: Option<nat>)
    ensures h.Some? <==> n > ItemsPerScreen
    ensures h.Some? ==> h.value * (n - ItemsPerScreen + 1) <= DisplayHeight < (h.value + 1) * (n - ItemsPerScreen + 1)
    ensures h.Some? ==> h.value <= DisplayHeight / 2
  {
    if n > ItemsPerScreen then
      var positions := if n - ItemsPerScreen + 1 > 1 then n - ItemsPerScreen + 1 else 1;
      Some(DisplayHeight / positions)
    else None
  }

  /** What playing one file came to. */
  datatype Playback =
    | Playing(info: seq<string>, rate: nat, chunks: seq<seq<byte>>)
    | OpenError

  /**
   * Playing a file (EasyWav.py:175-202): open it, read the header, show
   * the track information, then stream from where the header reads
   * stopped until the end or a key press. A name the directory does not
   * hold fails to open.
   */
  function PlayWav(disk: map<string, seq<byte>>, name: string, interrupt: Option<nat>): (p: Playback)
    ensures p.Playing? <==> name in disk
    ensures p.Playing? ==> p.info == PlayInfo(name) && p.rate == ReadWavHeader(disk[name]).rate
    ensures p.Playing? ==> p.chunks == Pump(disk[name], HeaderSize, interrupt)
  {
    if name !in disk then OpenError
    else
      var file := disk[name];
      var header := ReadWavHeader(file);
      assert Pump(file, header.position, interrupt) == Pump(file, HeaderSize, interrupt) by {
        if header.position < HeaderSize {
          PumpPastEnd(file, header.position, interrupt);
          PumpPastEnd(file, HeaderSize, interrupt);
        }
      }
      Playing(PlayInfo(name), header.rate, Pump(file, header.position, interrupt))
  }

  /** Without a key press, playing a file of at least a header streams all of its samples. */
  lemma PlayWavWritesSamples(disk: map<string, seq<byte>>, name: string)
    requires name in disk && |disk[name]| >= HeaderSize
    ensures Concat(PlayWav(disk, name, None).chunks) == disk[name][HeaderSize..]
  {
    PumpWritesRest(disk[name], HeaderSize);
  }

  /** The result of one key: the view and beeps after it, and a playback if one started. */
  datatype Step =
    | Continue(view: ListView, notes: seq<string>, playback: Option<Playback>)
    | Quit
    | Crash

  /**
   * One key of the main loop (EasyWav.py:166-207): ";" and "." move (and
   * beep even on an empty list), "ENT" and "SPC" play the highlighted file
   * when there is one, "GO" ends the app and any other key does nothing.
   * A cursor off the list would raise outside the playback's `try`.
   */
  function HandleKey(disk: map<string, seq<byte>>, v: ListView, key: string, interrupt: Option<nat>): (s: Step)
    ensures key == ";" ==> s == Continue(Up(v), MusicApp.UpNotes, None)
    ensures key == "." ==> s == Continue(Down(v), MusicApp.DownNotes, None)
    ensures (key == "ENT" || key == "SPC") && |v.items| == 0 ==> s == Continue(v, [], None)
    ensures (key == "ENT" || key == "SPC") && v.cursor < |v.items| ==>
      s.Continue? && s.view == v && s.playback == Some(PlayWav(disk, v.items[v.cursor], interrupt)) &&
      (s.notes == MusicApp.SelectNotes <==> s.playback.value.Playing?) &&
      (s.notes != MusicApp.SelectNotes ==> s.notes == [])
    ensures key !in {";", ".", "ENT", "SPC", "GO"} ==> s == Continue(v, [], None)
    ensures s.Quit? <==> key == "GO"
    ensures s.Crash? <==> (key == "ENT" || key == "SPC") && |v.items| > 0 && v.cursor >= |v.items|
    ensures s.Continue? && s.playback.Some? ==> s.view == v && v.cursor < |v.items|
    ensures s.Continue? && s.playback.Some? ==> s.playback.value == PlayWav(disk, v.items[v.cursor], interrupt)
    ensures s.Continue? && s.notes == MusicApp.SelectNotes ==> s.playback.Some? && s.playback.value.Playing?
  {
    if key == ";" then Continue(Up(v), MusicApp.UpNotes, None)
    else if key == "." then Continue(Down(v), MusicApp.DownNotes, None)
    else if key == "ENT" || key == "SPC" then
      if |v.items| == 0 then Continue(v, [], None)
      else if v.cursor >= |v.items| then Crash
      else
        var p := PlayWav(disk, v.items[v.cursor], interrupt);
        Continue(v, if p.Playing? then MusicApp.SelectNotes else [], Some(p))
    else if key == "GO" then Quit
    else Continue(v, [], None)
  }

  /** On a valid view, no key crashes and every key leaves the view valid. */
  lemma HandleKeyKeepsViewValid(disk: map<string, seq<byte>>, v: ListView, key: string, interrupt: Option<nat>)
    requires ViewValid(v)
    ensures !HandleKey(disk, v, key, interrupt).Crash?
    ensures HandleKey(disk, v, key, interrupt).Continue? ==> ViewValid(HandleKey(disk, v, key, interrupt).view)
  {
    MovesKeepViewValid(v);
  }

  /** The playback of the highlighted file shows the name as the music app would. */
  lemma HandleKeyPlaysHighlighted(disk: map<string, seq<byte>>, v: ListView, key: string)
    requires ViewValid(v) && |v.items| > 0 && v.items[v.cursor] in disk
    requires key == "ENT" || key == "SPC"
    ensures var s := HandleKey(disk, v, key, None);
      s.Continue? && s.playback.Some? && s.playback.value.Playing? &&
      s.playback.value.info == PlayInfo(v.items[v.cursor])
  {
  }

  /** A key and the poll that sees a key during the playback it may start. */
  datatype KeyPress = KeyPress(key: string, interrupt: Option<nat>)

  /**
   * The keys of one `kb.get_new_keys()` batch (EasyWav.py:165-207), in
   * order: the view after them and the steps they caused. Only "GO" (or a
   * crash) stops the batch early.
   */
  function RunKeys(disk: map<string, seq<byte>>, v: ListView, keys: seq<KeyPress>): (r: (ListView, seq<Step>))
    ensures |r.1| <= |keys|
    ensures forall i :: 0 <= i < |r.1| - 1 ==> r.1[i].Continue?
    ensures |r.1| < |keys| ==> |r.1| > 0 && !r.1[|r.1| - 1].Continue?
    ensures r.0.items == v.items
    ensures forall i :: 0 <= i < |r.1| ==> r.1[i].Continue? ==> r.1[i].view.items == v.items
    decreases |keys|
  {
    if |keys| == 0 then (v, [])
    else
      var s := HandleKey(disk, v, keys[0].key, keys[0].interrupt);
      if !s.Continue? then (v, [s])
      else
        var (last, steps) := RunKeys(disk, s.view, keys[1..]);
        var all := [s] + steps;
        assert forall i :: 1 <= i < |all| ==> all[i] == steps[i - 1];
        (last, all)
  }

  /** Each step of a batch is `HandleKey` on its key and the view the step before it left. */
  lemma {:induction false} RunKeysFollowsKeys(disk: map<string, seq<byte>>, v: ListView, keys: seq<KeyPress>)
    ensures var r := RunKeys(disk, v, keys);
      && (|keys| > 0 ==> r.1[0] == HandleKey(disk, v, keys[0].key, keys[0].interrupt))
      && (forall i :: 0 < i < |r.1| ==> r.1[i] == HandleKey(disk, r.1[i - 1].view, keys[i].key, keys[i].interrupt))
    decreases |keys|
  {
    if |keys| > 0 {
      var s := HandleKey(disk, v, keys[0].key, keys[0].interrupt);
      if s.Continue? {
        var rest := RunKeys(disk, s.view, keys[1..]);
        RunKeysFollowsKeys(disk, s.view, keys[1..]);
        var all := [s] + rest.1;
        assert RunKeys(disk, v, keys) == (rest.0, all);
        forall i | 0 < i < |all|
          ensures all[i] == HandleKey(disk, all[i - 1].view, keys[i].key, keys[i].interrupt)
        {
          assert keys[1..][i - 1] == keys[i];
          if i == 1 {
            assert all[1] == rest.1[0] && all[0] == s;
          } else {
            assert all[i] == rest.1[i - 1] && all[i - 1] == rest.1[i - 2];
          }
        }
      }
    }
  }

  /**
   * A batch ends in the view its last step left when that step goes on,
   * and otherwise in the view the step before it left (the one it started
   * from, for a batch whose first step ends the app).
   */
  lemma {:induction false} RunKeysEndView(disk: map<string, seq<byte>>, v: ListView, keys: seq<KeyPress>)
    ensures var r := RunKeys(disk, v, keys);
      r.0 == if |r.1| > 0 && r.1[|r.1| - 1].Continue? then r.1[|r.1| - 1].view
             else if |r.1| > 1 then r.1[|r.1| - 2].view else v
    decreases |keys|
  {
    if |keys| > 0 {
      var s := HandleKey(disk, v, keys[0].key, keys[0].interrupt);
      if s.Continue? {
        var rest := RunKeys(disk, s.view, keys[1..]);
        RunKeysEndView(disk, s.view, keys[1..]);
        var all := [s] + rest.1;
        assert RunKeys(disk, v, keys) == (rest.0, all);
        assert all[|all| - 1] == if |rest.1| > 0 then rest.1[|rest.1| - 1] else s;
        assert |all| > 1 ==> all[|all| - 2] == if |rest.1| > 1 then rest.1[|rest.1| - 2] else s;
      }
    }
  }

  /** A batch of keys on a valid view never crashes and leaves the view valid. */
  lemma {:induction false} RunKeysKeepsViewValid(disk: map<string, seq<byte>>, v: ListView, keys: seq<KeyPress>)
    requires ViewValid(v)
    ensures ViewValid(RunKeys(disk, v, keys).0)
    ensures forall i :: 0 <= i < |RunKeys(disk, v, keys).1| ==> !RunKeys(disk, v, keys).1[i].Crash?
    decreases |keys|
  {
    if |keys| > 0 {
      var s := HandleKey(disk, v, keys[0].key, keys[0].interrupt);
      HandleKeyKeepsViewValid(disk, v, keys[0].key, keys[0].interrupt);
      if s.Continue? {
        RunKeysKeepsViewValid(disk, s.view, keys[1..]);
        var (last, steps) := RunKeys(disk, s.view, keys[1..]);
        assert RunKeys(disk, v, keys).1 == [s] + steps;
      }
    }
  }
}

=== FILE: library.dfy ===
/**
 * The music index of `EasyWavMenu` (Music.py): `populate_music_lists`
 * turns a directory listing into artist, album and song lists plus
 * per-artist and per-album song lists, and `get_full_filename` maps a song
 * title back to a file name.
 */
module MusicLibrary {
  import opened Wrappers
  import opened Ordering
  import opened Text
  import opened AssocList

  /** Separator between the three parts of an indexed file name. */
  const Sep: string := " - "
  /** The suffix `populate_music_lists` requires, compared case-sensitively. */
  const Extension: string := ".wav"

  /** The three parts of an `Artist - Album - Song.wav` file name. */
  datatype Track = Track(artist: string, album: string, song: string)

  /** The file name `get_full_filename` builds for a track. */
  function FileName(t: Track): (name: string)
    ensures EndsWith(name, Extension)
    ensures name[..|name| - |Extension|] == Join([t.artist, t.album, t.song], Sep)
  {
    var stem := t.artist + Sep + t.album + Sep + t.song;
    JoinThree([t.artist, t.album, t.song], Sep);
    assert t.artist + Sep + (t.album + Sep + t.song) == stem;
    var name := stem + Extension;
    assert name[..|name| - |Extension|] == stem && name[|name| - |Extension|..] == Extension;
    name
  }

  /**
   * How `populate_music_lists` reads one listing entry: names ending in
   * exactly `.wav` whose stem splits on `" - "` into three parts are tracks;
   * everything else is skipped.
   */
  function ParseTrack(name: string): Option<Track>
  {
    if EndsWith(name, Extension) then
      var parts := Split(name[..|name| - 4], Sep);
      if |parts| == 3 then Some(Track(parts[0], parts[1], parts[2])) else None
    else None
  }

  /** Three parts joined by a separator, grouped from the right. */
  lemma {:induction false} JoinThree(parts: seq<string>, sep: string)
    requires |parts| == 3
    ensures Join(parts, sep) == parts[0] + sep + (parts[1] + sep + parts[2])
  {
    assert parts[1..][1..] == [parts[2]];
    assert Join(parts[1..][1..], sep) == parts[2];
  }

  /** A parsed name is rebuilt exactly by the format `get_full_filename` uses. */
  lemma {:induction false} ParseTrackFileName(name: string)
    requires ParseTrack(name).Some?
    ensures FileName(ParseTrack(name).value) == name
  {
    var stem := name[..|name| - 4];
    var parts := Split(stem, Sep);
    assert |parts| == 3 && ParseTrack(name).value == Track(parts[0], parts[1], parts[2]);
    assert name == stem + name[|name| - 4..];
    JoinSplit(stem, Sep);
    JoinThree(parts, Sep);
    Regroup(parts[0], parts[1], parts[2], Sep, Extension);
  }

  /** Regrouping the concatenation a file name is made of. */
  lemma Regroup(a: string, b: string, c: string, sep: string, ext: string)
    ensures a + sep + (b + sep + c) + ext == a + sep + b + sep + c + ext
  {
    assert a + sep + (b + sep + c) == a + sep + b + sep + c;
  }

  /** No part of a parsed name contains the separator. */
  lemma {:induction false} ParsedPartsClean(name: string)
    requires ParseTrack(name).Some?
    ensures var t := ParseTrack(name).value;
      !Contains(t.artist, Sep) && !Contains(t.album, Sep) && !Contains(t.song, Sep)
  {
    SplitPiecesClean(name[..|name| - 4], Sep);
  }

  /** A track whose parts contain no space is read back from its own file name. */
  lemma FileNameParses(t: Track)
    requires ' ' !in t.artist && ' ' !in t.album && ' ' !in t.song
    ensures ParseTrack(FileName(t)) == Some(t)
  {
    var name := FileName(t);
    var stem := t.artist + Sep + (t.album + Sep + t.song);
    assert name == stem + Extension;
    assert name[|name| - 4..] == Extension;
    assert name[..|name| - 4] == stem;
    assert Sep[0] == ' ';
    SplitThree(t.artist, t.album, t.song, Sep);
  }

  /** The tracks of a listing, in listing order. */
  function Tracks(names: seq<string>): seq<Track>
  {
    if |names| == 0 then []
    else
      var n := names[|names| - 1];
      Tracks(names[..|names| - 1]) + (match ParseTrack(n) case Some(t) => [t] case None => [])
  }

  /** A track is in `Tracks(names)` exactly when some listed name parses to it. */
  lemma InTracks(names: seq<string>, t: Track)
    ensures t in Tracks(names) <==> exists i :: 0 <= i < |names| && ParseTrack(names[i]) == Some(t)
  {
    if t in Tracks(names) {
      TrackFromName(names, t);
    }
    if exists i :: 0 <= i < |names| && ParseTrack(names[i]) == Some(t) {
      var i :| 0 <= i < |names| && ParseTrack(names[i]) == Some(t);
      NameGivesTrack(names, i);
    }
  }

  /** Every track of `Tracks(names)` comes from some listed name. */
  lemma {:induction false} TrackFromName(names: seq<string>, t: Track)
    requires t in Tracks(names)
    ensures exists i :: 0 <= i < |names| && ParseTrack(names[i]) == Some(t)
  {
    var init, last := names[..|names| - 1], names[|names| - 1];
    var extra := match ParseTrack(last) case Some(u) => [u] case None => [];
    assert Tracks(names) == Tracks(init) + extra;
    if t in Tracks(init) {
      TrackFromName(init, t);
      var i :| 0 <= i < |init| && ParseTrack(init[i]) == Some(t);
      assert names[i] == init[i];
    } else {
      assert ParseTrack(names[|names| - 1]) == Some(t);
    }
  }

  /** Every listed name that parses gives its track to `Tracks(names)`. */
  lemma {:induction false} NameGivesTrack(names: seq<string>, i: nat)
    requires i < |names| && ParseTrack(names[i]).Some?
    ensures ParseTrack(names[i]).value in Tracks(names)
  {
    var init, last := names[..|names| - 1], names[|names| - 1];
    var extra := match ParseTrack(last) case Some(u) => [u] case None => [];
    assert Tracks(names) == Tracks(init) + extra;
    if i < |init| {
      assert init[i] == names[i];
      NameGivesTrack(init, i);
    } else {
      assert ParseTrack(last).value in extra;
    }
  }

  /** Which part of a track a list is keyed on. */
  datatype Field = ArtistField | AlbumField | SongField

  function Get(t: Track, f: Field): string {
    match f
    case ArtistField => t.artist
    case AlbumField => t.album
    case SongField => t.song
  }

  /** One part of every track, in order, duplicates kept. */
  function Column(ts: seq<Track>, f: Field): (c: seq<string>)
    ensures |c| == |ts|
    ensures forall i :: 0 <= i < |ts| ==> c[i] == Get(ts[i], f)
  {
    if |ts| == 0 then []
    else Column(ts[..|ts| - 1], f) + [Get(ts[|ts| - 1], f)]
  }

  /** The songs of the tracks whose part `f` equals `key`, in listing order, duplicates kept. */
  function SongsWith(ts: seq<Track>, f: Field, key: string): seq<string>
  {
    if |ts| == 0 then []
    else
      var t := ts[|ts| - 1];
      SongsWith(ts[..|ts| - 1], f, key) + (if Get(t, f) == key then [t.song] else [])
  }

  /** `s` is among the songs filed under `key` exactly when some track has both. */
  lemma {:induction false} InSongsWith(ts: seq<Track>, f: Field, key: string, s: string)
    ensures s in SongsWith(ts, f, key) <==> exists i :: 0 <= i < |ts| && Get(ts[i], f) == key && ts[i].song == s
  {
    if |ts| > 0 {
      var init := ts[..|ts| - 1];
      InSongsWith(init, f, key, s);
      assert forall i :: 0 <= i < |init| ==> init[i] == ts[i];
    }
  }

  /** The index: the three flat lists and the two insertion-ordered dicts. */
  datatype Library = Library(
    artists: seq<string>,
    albums: seq<string>,
    songs: seq<string>,
    songsByArtist: seq<Entry>,
    songsByAlbum: seq<Entry>)

  const EmptyLibrary := Library([], [], [], [], [])

  /** The flat artist and album lists hold exactly the dict keys. */
  predicate Synced(lib: Library) {
    Keys(lib.songsByArtist) == lib.artists && Keys(lib.songsByAlbum) == lib.albums
  }

  /** `after` is `before` with `song` appended to the list under `key`, created empty if absent. */
  ghost predicate AppendedUnder(before: seq<Entry>, after: seq<Entry>, key: string, song: string) {
    forall k :: Lookup(after, k) == (if k == key then Some(Lookup(before, k).GetOr([]) + [song]) else Lookup(before, k))
  }

  /** The body of the listing loop for one parsed track (Music.py:192-206). */
  function AddTrack(lib: Library, t: Track): (r: Library)
    requires Synced(lib)
    ensures Synced(r)
    ensures r.artists == if t.artist in lib.artists then lib.artists else lib.artists + [t.artist]
    ensures r.albums == if t.album in lib.albums then lib.albums else lib.albums + [t.album]
    ensures r.songs == if t.song in lib.songs then lib.songs else lib.songs + [t.song]
    ensures AppendedUnder(lib.songsByArtist, r.songsByArtist, t.artist, t.song)
    ensures AppendedUnder(lib.songsByAlbum, r.songsByAlbum, t.album, t.song)
  {
    var withArtist :=
      if t.artist in lib.artists then lib
      else lib.(artists := lib.artists + [t.artist], songsByArtist := Put(lib.songsByArtist, t.artist, []));
    var withAlbum :=
      if t.album in withArtist.albums then withArtist
      else withArtist.(albums := withArtist.albums + [t.album],
                       songsByAlbum := Put(withArtist.songsByAlbum, t.album, []));
    var withSong :=
      if t.song in withAlbum.songs then withAlbum
      else withAlbum.(songs := withAlbum.songs + [t.song]);
    withSong.(songsByArtist := AppendTo(withSong.songsByArtist, t.artist, t.song),
              songsByAlbum := AppendTo(withSong.songsByAlbum, t.album, t.song))
  }

  /**
   * One iteration of the listing loop (Music.py:188-206): a track name
   * puts its artist, album and song in the flat lists and its song in that
   * artist's and that album's lists; any other name changes nothing.
   */
  function AddFile(lib: Library, name: string): (r: Library)
    requires Synced(lib)
    ensures Synced(r)
    ensures ParseTrack(name).None? ==> r == lib
    ensures ParseTrack(name).Some? ==>
      var t := ParseTrack(name).value;
      && t.artist in r.artists && t.album in r.albums && t.song in r.songs
      && Lookup(r.songsByArtist, t.artist).Some? && t.song in Lookup(r.songsByArtist, t.artist).value
      && Lookup(r.songsByAlbum, t.album).Some? && t.song in Lookup(r.songsByAlbum, t.album).value
  {
    match ParseTrack(name)
    case None => lib
    case Some(t) => AddTrack(lib, t)
  }

  /** The listing loop over every name, before the lists are sorted. */
  function Scan(names: seq<string>): (r: Library)
    ensures Synced(r)
  {
    if |names| == 0 then EmptyLibrary
    else AddFile(Scan(names[..|names| - 1]), names[|names| - 1])
  }

  /** The unsorted index is the first-occurrence view of the listing's tracks. */
  ghost predicate Indexes(lib: Library, ts: seq<Track>) {
    && lib.artists == Dedup(Column(ts, ArtistField))
    && lib.albums == Dedup(Column(ts, AlbumField))
    && lib.songs == Dedup(Column(ts, SongField))
    && (forall a :: Lookup(lib.songsByArtist, a) ==
          if a in lib.artists then Some(SongsWith(ts, ArtistField, a)) else None)
    && (forall b :: Lookup(lib.songsByAlbum, b) ==
          if b in lib.albums then Some(SongsWith(ts, AlbumField, b)) else None)
  }

  /** No track filed under a key means no song listed under it. */
  lemma {:induction false} SongsWithAbsent(ts: seq<Track>, f: Field, key: string)
    requires key !in Column(ts, f)
    ensures SongsWith(ts, f, key) == []
  {
    if |ts| > 0 {
      var init := ts[..|ts| - 1];
      assert Column(ts, f) == Column(init, f) + [Get(ts[|ts| - 1], f)];
      SongsWithAbsent(init, f, key);
    }
  }

  lemma ColumnSnoc(ts: seq<Track>, t: Track, f: Field)
    ensures Column(ts + [t], f) == Column(ts, f) + [Get(t, f)]
  {
    assert (ts + [t])[..|ts|] == ts;
  }

  lemma DedupSnoc(xs: seq<string>, x: string)
    ensures Dedup(xs + [x]) == if x in Dedup(xs) then Dedup(xs) else Dedup(xs) + [x]
  {
    assert (xs + [x])[..|xs|] == xs;
  }

  lemma SongsWithSnoc(ts: seq<Track>, t: Track, f: Field, key: string)
    ensures SongsWith(ts + [t], f, key) == SongsWith(ts, f, key) + (if Get(t, f) == key then [t.song] else [])
  {
    assert (ts + [t])[..|ts|] == ts;
  }

  /** One dict of the index stays faithful to the tracks when a track is added. */
  lemma DictStep(before: seq<Entry>, after: seq<Entry>, ts: seq<Track>, t: Track, f: Field,
                 keys: seq<string>, keys': seq<string>)
    requires forall k :: k !in keys ==> SongsWith(ts, f, k) == []
    requires forall k :: Lookup(before, k) == if k in keys then Some(SongsWith(ts, f, k)) else None
    requires AppendedUnder(before, after, Get(t, f), t.song)
    requires keys' == if Get(t, f) in keys then keys else keys + [Get(t, f)]
    ensures forall k :: Lookup(after, k) == if k in keys' then Some(SongsWith(ts + [t], f, k)) else None
  {
    forall k ensures Lookup(after, k) == if k in keys' then Some(SongsWith(ts + [t], f, k)) else None {
      SongsWithSnoc(ts, t, f, k);
      if k == Get(t, f) {
        assert k in keys';
        assert Lookup(after, k) == Some(Lookup(before, k).GetOr([]) + [t.song]);
        if k !in keys {
          assert SongsWith(ts, f, k) == [];
          assert Lookup(before, k) == None;
        } else {
          assert Lookup(before, k) == Some(SongsWith(ts, f, k));
        }
        assert Lookup(before, k).GetOr([]) == SongsWith(ts, f, k);
        assert SongsWith(ts + [t], f, k) == SongsWith(ts, f, k) + [t.song];
        assert Lookup(after, k) == Some(SongsWith(ts + [t], f, k));
      } else {
        assert Lookup(after, k) == Lookup(before, k);
        assert k in keys' <==> k in keys;
        assert SongsWith(ts + [t], f, k) == SongsWith(ts, f, k);
        assert Lookup(after, k) == if k in keys' then Some(SongsWith(ts + [t], f, k)) else None;
      }
    }
  }

  /** Keys never seen in the tracks have no songs. */
  lemma KeysCoverSongs(ts: seq<Track>, f: Field)
    ensures forall k :: k !in Dedup(Column(ts, f)) ==> SongsWith(ts, f, k) == []
  {
    forall k | k !in Dedup(Column(ts, f)) ensures SongsWith(ts, f, k) == [] {
      SongsWithAbsent(ts, f, k);
    }
  }

  /** The listing loop builds exactly the first-occurrence lists and the per-key song lists. */
  lemma {:induction false} ScanIndexes(names: seq<string>)
    ensures Indexes(Scan(names), Tracks(names))
  {
    if |names| > 0 {
      var init := names[..|names| - 1];
      var n := names[|names| - 1];
      ScanIndexes(init);
      var lib := Scan(init);
      var ts := Tracks(init);
      match ParseTrack(n)
      case None =>
        assert Tracks(names) == ts;
      case Some(t) =>
        assert Tracks(names) == ts + [t];
        assert Scan(names) == AddTrack(lib, t);
        AddTrackIndexes(lib, ts, t);
    }
  }

  /** One pass of the listing loop keeps the index faithful to the tracks seen so far. */
  lemma AddTrackIndexes(lib: Library, ts: seq<Track>, t: Track)
    requires Synced(lib) && Indexes(lib, ts)
    ensures Indexes(AddTrack(lib, t), ts + [t])
  {
    var r := AddTrack(lib, t);
    FlatStep(lib.artists, r.artists, ts, t, ArtistField);
    FlatStep(lib.albums, r.albums, ts, t, AlbumField);
    FlatStep(lib.songs, r.songs, ts, t, SongField);
    KeysCoverSongs(ts, ArtistField);
    KeysCoverSongs(ts, AlbumField);
    DictStep(lib.songsByArtist, r.songsByArtist, ts, t, ArtistField, lib.artists, r.artists);
    DictStep(lib.songsByAlbum, r.songsByAlbum, ts, t, AlbumField, lib.albums, r.albums);
    assert Get(t, ArtistField) == t.artist && Get(t, AlbumField) == t.album;
  }

  /** A flat list that records first occurrences stays so when a track is added. */
  lemma FlatStep(before: seq<string>, after: seq<string>, ts: seq<Track>, t: Track, f: Field)
    requires before == Dedup(Column(ts, f))
    requires after == if Get(t, f) in before then before else before + [Get(t, f)]
    ensures after == Dedup(Column(ts + [t], f))
  {
    ColumnSnoc(ts, t, f);
    DedupSnoc(Column(ts, f), Get(t, f));
  }

  /** `list.sort()` on the three flat lists and on every per-key list (Music.py:209-215). */
  function Finalize(lib: Library): (r: Library)
    ensures Sorted(r.artists) && multiset(r.artists) == multiset(lib.artists)
    ensures Sorted(r.albums) && multiset(r.albums) == multiset(lib.albums)
    ensures Sorted(r.songs) && multiset(r.songs) == multiset(lib.songs)
    ensures Keys(r.songsByArtist) == Keys(lib.songsByArtist) && Keys(r.songsByAlbum) == Keys(lib.songsByAlbum)
    ensures forall a :: Lookup(lib.songsByArtist, a).Some? ==>
      Lookup(r.songsByArtist, a).Some? && Sorted(Lookup(r.songsByArtist, a).value) &&
      multiset(Lookup(r.songsByArtist, a).value) == multiset(Lookup(lib.songsByArtist, a).value)
    ensures forall b :: Lookup(lib.songsByAlbum, b).Some? ==>
      Lookup(r.songsByAlbum, b).Some? && Sorted(Lookup(r.songsByAlbum, b).value) &&
      multiset(Lookup(r.songsByAlbum, b).value) == multiset(Lookup(lib.songsByAlbum, b).value)
  {
    Library(Sort(lib.artists), Sort(lib.albums), Sort(lib.songs),
            SortValues(lib.songsByArtist), SortValues(lib.songsByAlbum))
  }

  /**
   * `populate_music_lists` (Music.py:179-218). `listing` is the result of
   * `os.listdir('/sd/music')`, `None` when it raised `OSError`, in which
   * case every list stays empty.
   */
  function Populate(listing: Option<seq<string>>): (r: Library)
    ensures listing.None? ==> r == EmptyLibrary
  {
    match listing
    case None => EmptyLibrary
    case Some(names) => Finalize(Scan(names))
  }

  /**
   * After `populate_music_lists` the three flat lists are sorted without
   * repeats, the dict keys are exactly the flat artist (album) list, and
   * every per-key list is sorted (Music.py:209-215).
   */
  lemma PopulateSorted(listing: Option<seq<string>>)
    ensures var r := Populate(listing);
      && Sorted(r.artists) && NoDup(r.artists)
      && Sorted(r.albums) && NoDup(r.albums)
      && Sorted(r.songs) && NoDup(r.songs)
      && (forall a :: a in r.artists <==> Lookup(r.songsByArtist, a).Some?)
      && (forall b :: b in r.albums <==> Lookup(r.songsByAlbum, b).Some?)
      && (forall a :: Lookup(r.songsByArtist, a).Some? ==> Sorted(Lookup(r.songsByArtist, a).value))
      && (forall b :: Lookup(r.songsByAlbum, b).Some? ==> Sorted(Lookup(r.songsByAlbum, b).value))
  {
    if listing.Some? {
      ScanIndexes(listing.value);
    }
  }

  /** The per-key dict of the index for the artist or album part. */
  function Dict(lib: Library, f: Field): seq<Entry>
    requires f != SongField
  {
    if f == ArtistField then lib.songsByArtist else lib.songsByAlbum
  }

  /** The sorted index, described by the tracks of the listing. */
  ghost predicate FinalIndexes(lib: Library, ts: seq<Track>) {
    && (forall a :: a in lib.artists <==> a in Column(ts, ArtistField))
    && (forall b :: b in lib.albums <==> b in Column(ts, AlbumField))
    && (forall s :: s in lib.songs <==> s in Column(ts, SongField))
    && NoDup(Keys(lib.songsByArtist)) && NoDup(Keys(lib.songsByAlbum))
    && (forall a :: Lookup(lib.songsByArtist, a) ==
          if a in Column(ts, ArtistField) then Some(Sort(SongsWith(ts, ArtistField, a))) else None)
    && (forall b :: Lookup(lib.songsByAlbum, b) ==
          if b in Column(ts, AlbumField) then Some(Sort(SongsWith(ts, AlbumField, b))) else None)
  }

  /**
   * After a rebuild, an artist (album) is listed exactly when some track
   * has it, and its song list is the sorted list of the songs of all its
   * tracks, one entry per file, duplicates kept (Music.py:188-215).
   */
  lemma PopulateIndexes(names: seq<string>)
    ensures FinalIndexes(Populate(Some(names)), Tracks(names))
  {
    var lib := Scan(names);
    var ts := Tracks(names);
    ScanIndexes(names);
    var r := Populate(Some(names));
    assert r == Finalize(lib);
    forall a ensures Lookup(r.songsByArtist, a) ==
      if a in Column(ts, ArtistField) then Some(Sort(SongsWith(ts, ArtistField, a))) else None
    {
      assert a in Keys(lib.songsByArtist) <==> a in Column(ts, ArtistField);
    }
    forall b ensures Lookup(r.songsByAlbum, b) ==
      if b in Column(ts, AlbumField) then Some(Sort(SongsWith(ts, AlbumField, b))) else None
    {
      assert b in Keys(lib.songsByAlbum) <==> b in Column(ts, AlbumField);
    }
  }

  /**
   * The dicts keep their keys in first-occurrence order: sorting the
   * per-key lists does not reorder the dicts (Music.py:192-215).
   */
  lemma PopulateKeyOrder(names: seq<string>)
    ensures Keys(Populate(Some(names)).songsByArtist) == Dedup(Column(Tracks(names), ArtistField))
    ensures Keys(Populate(Some(names)).songsByAlbum) == Dedup(Column(Tracks(names), AlbumField))
  {
    ScanIndexes(names);
    assert Populate(Some(names)) == Finalize(Scan(names));
  }

  /**
   * The nested loops of `get_full_filename` (Music.py:243-249): for each
   * artist in insertion order whose list holds `song`, scan the albums in
   * insertion order and return the first one whose list holds it.
   */
  function ResolveFrom(arts: seq<Entry>, albs: seq<Entry>, song: string): (r: Option<string>)
    ensures r == match (FirstContaining(arts, song), FirstContaining(albs, song))
                 case (Some(a), Some(b)) => Some(FileName(Track(a, b, song)))
                 case _ => None
  {
    if |arts| == 0 then None
    else if song in arts[0].values then
      match FirstContaining(albs, song)
      case Some(b) => Some(arts[0].key + Sep + b + Sep + song + Extension)
      case None => ResolveFrom(arts[1..], albs, song)
    else ResolveFrom(arts[1..], albs, song)
  }

  /**
   * `get_full_filename`: the title is found exactly when some artist list
   * and some album list hold it; the name pairs the first such artist with
   * the first such album.
   */
  function FullFilename(lib: Library, song: string): (r: Option<string>)
    ensures r.None? <==>
      (forall i :: 0 <= i < |lib.songsByArtist| ==> song !in lib.songsByArtist[i].values) ||
      (forall i :: 0 <= i < |lib.songsByAlbum| ==> song !in lib.songsByAlbum[i].values)
    ensures r.Some? ==> EndsWith(r.value, Extension)
  {
    ResolveFrom(lib.songsByArtist, lib.songsByAlbum, song)
  }

  /** Every key whose list holds `t.song` is `t`'s own when `t` is the only track with that song. */
  lemma OnlyOwnKeyHoldsSong(lib: Library, names: seq<string>, f: Field, t: Track, i: nat)
    requires f != SongField
    requires forall n :: n in names && ParseTrack(n).Some? && ParseTrack(n).value.song == t.song
               ==> ParseTrack(n) == Some(t)
    requires FinalIndexes(lib, Tracks(names))
    requires i < |Dict(lib, f)|
    requires t.song in Dict(lib, f)[i].values
    ensures Dict(lib, f)[i].key == Get(t, f)
  {
    var ts := Tracks(names);
    var m := Dict(lib, f);
    var key := m[i].key;
    LookupOwnKey(m, i);
    assert key in Keys(m);
    assert key in Column(ts, f);
    assert t.song in SongsWith(ts, f, key);
    InSongsWith(ts, f, key, t.song);
    var j :| 0 <= j < |ts| && Get(ts[j], f) == key && ts[j].song == t.song;
    InTracks(names, ts[j]);
    var k :| 0 <= k < |names| && ParseTrack(names[k]) == Some(ts[j]);
    assert names[k] in names;
    assert ts[j] == t;
  }

  /** In one index, the first key holding a title that only `t` carries is `t`'s own. */
  lemma UniqueTitleKey(lib: Library, names: seq<string>, t: Track, f: Field)
    requires f != SongField
    requires t in Tracks(names)
    requires forall n :: n in names && ParseTrack(n).Some? && ParseTrack(n).value.song == t.song
               ==> ParseTrack(n) == Some(t)
    requires FinalIndexes(lib, Tracks(names))
    ensures FirstContaining(Dict(lib, f), t.song) == Some(Get(t, f))
  {
    var ts, m := Tracks(names), Dict(lib, f);
    var j :| 0 <= j < |ts| && ts[j] == t;
    InSongsWith(ts, f, Get(t, f), t.song);
    assert Column(ts, f)[j] == Get(t, f);
    forall i | 0 <= i < |m| && t.song in m[i].values
      ensures m[i].key == Get(t, f)
    {
      OnlyOwnKeyHoldsSong(lib, names, f, t, i);
    }
    FirstContainingUnique(m, t.song, Get(t, f));
  }

  /** The first artist and first album holding a title that only `t` carries are `t`'s own. */
  lemma UniqueTitleKeys(lib: Library, names: seq<string>, t: Track)
    requires t in Tracks(names)
    requires forall n :: n in names && ParseTrack(n).Some? && ParseTrack(n).value.song == t.song
               ==> ParseTrack(n) == Some(t)
    requires FinalIndexes(lib, Tracks(names))
    ensures FirstContaining(lib.songsByArtist, t.song) == Some(t.artist)
    ensures FirstContaining(lib.songsByAlbum, t.song) == Some(t.album)
  {
    UniqueTitleKey(lib, names, t, ArtistField);
    UniqueTitleKey(lib, names, t, AlbumField);
  }

  /**
   * A title carried by exactly one indexed file resolves to that file's
   * name (Music.py:243-249 on an index built by Music.py:179-218).
   */
  lemma UniqueTitleResolves(names: seq<string>, file: string)
    requires file in names && ParseTrack(file).Some?
    requires forall n :: n in names && ParseTrack(n).Some? && ParseTrack(n).value.song == ParseTrack(file).value.song
               ==> n == file
    ensures FullFilename(Populate(Some(names)), ParseTrack(file).value.song) == Some(file)
  {
    var t := ParseTrack(file).value;
    PopulateIndexes(names);
    ParseTrackFileName(file);
    var k :| 0 <= k < |names| && names[k] == file;
    InTracks(names, t);
    UniqueTrackResolves(Populate(Some(names)), names, t);
  }

  lemma UniqueTrackResolves(lib: Library, names: seq<string>, t: Track)
    requires t in Tracks(names)
    requires forall n :: n in names && ParseTrack(n).Some? && ParseTrack(n).value.song == t.song
               ==> ParseTrack(n) == Some(t)
    requires FinalIndexes(lib, Tracks(names))
    ensures FullFilename(lib, t.song) == Some(FileName(t))
  {
    UniqueTitleKeys(lib, names, t);
  }

  /** In an index described by `ts`, a title some track carries resolves. */
  lemma CarriedTitleResolves(lib: Library, ts: seq<Track>, j: nat)
    requires FinalIndexes(lib, ts) && j < |ts|
    ensures FullFilename(lib, ts[j].song).Some?
  {
    var t := ts[j];
    forall f: Field | f != SongField
      ensures exists i :: 0 <= i < |Dict(lib, f)| && t.song in Dict(lib, f)[i].values
    {
      InSongsWith(ts, f, Get(t, f), t.song);
      assert Column(ts, f)[j] == Get(t, f);
      assert Lookup(Dict(lib, f), Get(t, f)) == Some(Sort(SongsWith(ts, f, Get(t, f))));
      LookupFindsEntry(Dict(lib, f), Get(t, f));
    }
    assert Dict(lib, ArtistField) == lib.songsByArtist && Dict(lib, AlbumField) == lib.songsByAlbum;
    var i1 :| 0 <= i1 < |Dict(lib, ArtistField)| && t.song in Dict(lib, ArtistField)[i1].values;
    var i2 :| 0 <= i2 < |Dict(lib, AlbumField)| && t.song in Dict(lib, AlbumField)[i2].values;
  }

  /** Every title in the flat song list resolves to some file name. */
  lemma ListedTitlesResolve(names: seq<string>, song: string)
    ensures song in Populate(Some(names)).songs ==> FullFilename(Populate(Some(names)), song).Some?
  {
    var lib, ts := Populate(Some(names)), Tracks(names);
    if song in lib.songs {
      PopulateIndexes(names);
      assert song in Column(ts, SongField);
      var j :| 0 <= j < |ts| && Column(ts, SongField)[j] == song;
      CarriedTitleResolves(lib, ts, j);
    }
  }

  /** The names of a list of tracks, in order. */
  function FileNames(ts: seq<Track>): (names: seq<string>)
    ensures |names| == |ts|
  {
    seq(|ts|, i requires 0 <= i < |ts| => FileName(ts[i]))
  }

  /** No part of the track contains a space, so its name splits back into it. */
  predicate Plain(t: Track) {
    ' ' !in t.artist && ' ' !in t.album && ' ' !in t.song
  }

  /** Listing the names of space-free tracks yields exactly those tracks. */
  lemma {:induction false} TracksOfFileNames(ts: seq<Track>)
    requires forall i :: 0 <= i < |ts| ==> Plain(ts[i])
    ensures Tracks(FileNames(ts)) == ts
  {
    if |ts| > 0 {
      var init, t, names := ts[..|ts| - 1], ts[|ts| - 1], FileNames(ts);
      assert names[..|ts| - 1] == FileNames(init);
      TracksOfFileNames(init);
      FileNameParses(t);
      assert names[|ts| - 1] == FileName(t);
      assert Tracks(names) == Tracks(FileNames(init)) + [t];
      assert ts == init + [t];
    }
  }

  /** Sorting a list whose entries are all `x` leaves it as it is. */
  lemma SortConstant(s: seq<string>, x: string)
    requires forall i :: 0 <= i < |s| ==> s[i] == x
    ensures Sort(s) == s
  {
    var r := Sort(s);
    assert |r| == |multiset(r)| == |multiset(s)| == |s|;
    forall i | 0 <= i < |r| ensures r[i] == s[i] {
      assert r[i] in multiset(s);
    }
  }

  /** The list under the key of any indexed track is the sorted list of that key's songs. */
  lemma FinalListOf(lib: Library, ts: seq<Track>, f: Field, j: nat)
    requires FinalIndexes(lib, ts) && f != SongField && j < |ts|
    ensures Lookup(Dict(lib, f), Get(ts[j], f)) == Some(Sort(SongsWith(ts, f, Get(ts[j], f))))
  {
    assert Column(ts, f)[j] == Get(ts[j], f);
  }

  /**
   * A listing of three files in which title `s` is carried by two files,
   * by artists `a` and `b`, and title `t` by one file of artist `c` that
   * shares its album `x` with `b`'s file.
   */
  function Mixed(a: string, b: string, c: string, x: string, y: string, s: string, t: string): seq<Track> {
    [Track(c, x, t), Track(a, y, s), Track(b, x, s)]
  }

  /** The parts of the mixed listing are space-free and as distinct as the example needs. */
  predicate MixedParts(a: string, b: string, c: string, x: string, y: string, s: string, t: string) {
    && a != b && a != c && b != c && x != y && s != t
    && forall p :: p in [a, b, c, x, y, s, t] ==> ' ' !in p
  }

  lemma MixedPlain(a: string, b: string, c: string, x: string, y: string, s: string, t: string)
    requires MixedParts(a, b, c, x, y, s, t)
    ensures forall i :: 0 <= i < 3 ==> Plain(Mixed(a, b, c, x, y, s, t)[i])
    ensures Plain(Track(a, x, s))
  {
    var parts := [a, b, c, x, y, s, t];
    assert parts[0] == a && parts[1] == b && parts[2] == c && parts[3] == x;
    assert parts[4] == y && parts[5] == s && parts[6] == t;
  }

  lemma MixedArtists(a: string, b: string, c: string, x: string, y: string, s: string, t: string)
    requires MixedParts(a, b, c, x, y, s, t)
    ensures Dedup(Column(Mixed(a, b, c, x, y, s, t), ArtistField)) == [c, a, b]
  {
    assert Column(Mixed(a, b, c, x, y, s, t), ArtistField) == [c, a, b];
    DedupDistinct([c, a, b]);
  }

  lemma MixedAlbums(a: string, b: string, c: string, x: string, y: string, s: string, t: string)
    requires MixedParts(a, b, c, x, y, s, t)
    ensures Dedup(Column(Mixed(a, b, c, x, y, s, t), AlbumField)) == [x, y]
  {
    assert Column(Mixed(a, b, c, x, y, s, t), AlbumField) == [x, y, x];
    DedupRepeat([x, y, x]);
    assert [x, y, x][..2] == [x, y];
  }

  /** Three distinct values are kept as they are. */
  lemma DedupDistinct(xs: seq<string>)
    requires |xs| == 3 && xs[0] != xs[1] && xs[0] != xs[2] && xs[1] != xs[2]
    ensures Dedup(xs) == xs
  {
    var one, two := xs[..1], xs[..2];
    assert one[..0] == [] && two[..1] == one;
    assert Dedup(one) == one;
    assert xs[1] !in one && Dedup(two) == two;
    assert xs[2] !in two;
  }

  /** A value seen again is dropped. */
  lemma DedupRepeat(xs: seq<string>)
    requires |xs| == 3 && xs[0] != xs[1] && xs[2] == xs[0]
    ensures Dedup(xs) == xs[..2]
  {
    var one, two := xs[..1], xs[..2];
    assert one[..0] == [] && two[..1] == one;
    assert Dedup(one) == one;
    assert xs[1] !in one && Dedup(two) == two;
    assert xs[2] in two;
  }

  lemma MixedSongs(a: string, b: string, c: string, x: string, y: string, s: string, t: string)
    requires MixedParts(a, b, c, x, y, s, t)
    ensures SongsWith(Mixed(a, b, c, x, y, s, t), ArtistField, c) == [t]
    ensures SongsWith(Mixed(a, b, c, x, y, s, t), ArtistField, a) == [s]
    ensures SongsWith(Mixed(a, b, c, x, y, s, t), AlbumField, x) == [t, s]
  {
    var ts := Mixed(a, b, c, x, y, s, t);
    var t1, t2, t3 := ts[0], ts[1], ts[2];
    var one, two: seq<Track> := [t1], [t1, t2];
    assert [] + [t1] == one && one + [t2] == two && two + [t3] == ts;
    SongsWithSnoc([], t1, ArtistField, c);
    SongsWithSnoc(one, t2, ArtistField, c);
    SongsWithSnoc(two, t3, ArtistField, c);
    SongsWithSnoc([], t1, ArtistField, a);
    SongsWithSnoc(one, t2, ArtistField, a);
    SongsWithSnoc(two, t3, ArtistField, a);
    SongsWithSnoc([], t1, AlbumField, x);
    SongsWithSnoc(one, t2, AlbumField, x);
    SongsWithSnoc(two, t3, AlbumField, x);
  }

  lemma MixedLists(lib: Library, a: string, b: string, c: string, x: string, y: string, s: string, t: string)
    requires MixedParts(a, b, c, x, y, s, t)
    requires FinalIndexes(lib, Mixed(a, b, c, x, y, s, t))
    ensures Lookup(lib.songsByArtist, c).Some? && s !in Lookup(lib.songsByArtist, c).value
    ensures Lookup(lib.songsByArtist, a).Some? && s in Lookup(lib.songsByArtist, a).value
    ensures Lookup(lib.songsByAlbum, x).Some? && s in Lookup(lib.songsByAlbum, x).value
  {
    var ts := Mixed(a, b, c, x, y, s, t);
    MixedSongs(a, b, c, x, y, s, t);
    FinalListOf(lib, ts, ArtistField, 0);
    FinalListOf(lib, ts, ArtistField, 1);
    FinalListOf(lib, ts, AlbumField, 0);
  }

  /** The search meets `c`'s list without `s`, then `a`'s list with it, and `x`'s list first among the albums. */
  lemma MixedResolves(arts: seq<Entry>, albs: seq<Entry>, a: string, b: string, c: string, x: string, y: string, s: string)
    requires a != b && a != c && b != c && x != y
    requires Keys(arts) == [c, a, b] && Keys(albs) == [x, y]
    requires Lookup(arts, c).Some? && s !in Lookup(arts, c).value
    requires Lookup(arts, a).Some? && s in Lookup(arts, a).value
    requires Lookup(albs, x).Some? && s in Lookup(albs, x).value
    ensures ResolveFrom(arts, albs, s) == Some(FileName(Track(a, x, s)))
  {
    assert arts[0].key == c && arts[1].key == a && albs[0].key == x;
    LookupOwnKey(arts, 0);
    LookupOwnKey(arts, 1);
    LookupOwnKey(albs, 0);
    FirstContainingAt(arts, s, 1);
    FirstContainingAt(albs, s, 0);
  }

  /**
   * The artist and the album of the resolved name are searched for
   * independently (Music.py:243-249), so they can come from two different
   * files: a title carried by `a`'s file on album `y` and by `b`'s file on
   * album `x` resolves to `a - x - s.wav`.
   */
  lemma ResolutionCanMixFiles(a: string, b: string, c: string, x: string, y: string, s: string, t: string)
    requires MixedParts(a, b, c, x, y, s, t)
    ensures FullFilename(Populate(Some(FileNames(Mixed(a, b, c, x, y, s, t)))), s) == Some(FileName(Track(a, x, s)))
  {
    var ts := Mixed(a, b, c, x, y, s, t);
    var names := FileNames(ts);
    MixedPlain(a, b, c, x, y, s, t);
    TracksOfFileNames(ts);
    PopulateIndexes(names);
    PopulateKeyOrder(names);
    MixedArtists(a, b, c, x, y, s, t);
    MixedAlbums(a, b, c, x, y, s, t);
    var lib := Populate(Some(names));
    MixedLists(lib, a, b, c, x, y, s, t);
    MixedResolves(lib.songsByArtist, lib.songsByAlbum, a, b, c, x, y, s);
  }

  /** The name resolved above belongs to no listed file. */
  lemma MixedNameNotListed(a: string, b: string, c: string, x: string, y: string, s: string, t: string)
    requires MixedParts(a, b, c, x, y, s, t)
    ensures FileName(Track(a, x, s)) !in FileNames(Mixed(a, b, c, x, y, s, t))
  {
    var ts := Mixed(a, b, c, x, y, s, t);
    MixedPlain(a, b, c, x, y, s, t);
    FileNameParses(Track(a, x, s));
    forall i | 0 <= i < 3 ensures FileNames(ts)[i] != FileName(Track(a, x, s)) {
      FileNameParses(ts[i]);
    }
  }

  /** Two files by artist `a` with the same title `s`. */
  function Twins(a: string, x: string, y: string, s: string): seq<Track> {
    [Track(a, x, s), Track(a, y, s)]
  }

  lemma TwinSongs(ts: seq<Track>, a: string, s: string)
    requires |ts| == 2 && ts[0].artist == a == ts[1].artist && ts[0].song == s == ts[1].song
    ensures SongsWith(ts, ArtistField, a) == [s, s]
  {
    var one: seq<Track> := [ts[0]];
    assert [] + [ts[0]] == one && one + [ts[1]] == ts;
    SongsWithSnoc([], ts[0], ArtistField, a);
    SongsWithSnoc(one, ts[1], ArtistField, a);
  }

  lemma TwinLists(lib: Library, ts: seq<Track>, a: string, s: string)
    requires |ts| == 2 && ts[0].artist == a == ts[1].artist && ts[0].song == s == ts[1].song
    requires FinalIndexes(lib, ts)
    ensures Lookup(lib.songsByArtist, a) == Some([s, s])
  {
    TwinSongs(ts, a, s);
    SortConstant([s, s], s);
    FinalListOf(lib, ts, ArtistField, 0);
    assert Dict(lib, ArtistField) == lib.songsByArtist;
  }

  /**
   * A per-artist list keeps one entry per file, not per title
   * (Music.py:204-205): in a listing of two files by artist `a` with the
   * same title `s`, `s` is listed twice under `a`.
   */
  lemma ArtistListKeepsDuplicates(names: seq<string>, a: string, x: string, y: string, s: string)
    requires Tracks(names) == Twins(a, x, y, s)
    ensures Lookup(Populate(Some(names)).songsByArtist, a) == Some([s, s])
  {
    PopulateIndexes(names);
    TwinLists(Populate(Some(names)), Tracks(names), a, s);
  }

  /** Such a listing exists whenever the parts are space-free: the two files' names. */
  lemma TwinsListed(a: string, x: string, y: string, s: string)
    requires ' ' !in a && ' ' !in x && ' ' !in y && ' ' !in s
    ensures Tracks(FileNames(Twins(a, x, y, s))) == Twins(a, x, y, s)
  {
    var ts := Twins(a, x, y, s);
    assert Plain(ts[0]) && Plain(ts[1]);
    TracksOfFileNames(ts);
  }
}

=== FILE: menu.dfy ===
/**
 * The menu of `EasyWavMenu` (Music.py:160-367) as a state machine: a view,
 * the list shown in it, a cursor, the first visible row, and the artist or
 * album whose songs are shown. The index built by `populate_music_lists`
 * does not change while the menu runs and is passed to every step.
 */
module Menu {
  import opened Wrappers
  import opened AssocList
  import opened MusicLibrary

  const DisplayHeight := 135
  const CharHeight := 32
  /** Rows of the large font on the screen: 135 / 32 = 4. */
  const ItemsPerScreen := DisplayHeight / CharHeight

  const MainItems: seq<string> := ["Library", "Shuffle", "Settings"]
  const LibraryItems: seq<string> := ["Artists", "Albums", "Songs"]

  datatype View = Main | LibrarySubmenu | Artists | Albums | Songs | ArtistSongs | AlbumSongs

  /** The views listing songs, where selecting plays a file. */
  predicate IsSongView(v: View) {
    v == Songs || v == ArtistSongs || v == AlbumSongs
  }

  /** The views listing index contents, where selecting reads `items[cursor]`. */
  predicate IsListView(v: View) {
    v != Main && v != LibrarySubmenu
  }

  datatype Menu = Menu(
    view: View,
    items: seq<string>,
    cursor: nat,
    top: nat,
    artist: Option<string>,
    album: Option<string>)

  /** The state after `__init__` (Music.py:164-176). */
  const Initial := Menu(Main, MainItems, 0, 0, None, None)

  /**
   * What `select` and `handle_input` return: the strings "up", "down",
   * "select", "refresh", "back", "exit", the tuples ("play", f) and
   * ("play_shuffle", f), and None.
   */
  datatype Action = Up | Down | Select | Refresh | Back | Exit | Play(file: string) | PlayShuffle(file: string) | NoAction

  /** The exceptions a menu step can raise. */
  datatype Fault = IndexError | KeyError

  datatype Outcome = Done(menu: Menu, action: Action) | Raised(fault: Fault)

  /** The cursor is on the screen and on the list (row 0 when the list is empty). */
  predicate InWindow(items: seq<string>, cursor: nat, top: nat) {
    top <= cursor < top + ItemsPerScreen && (cursor < |items| || cursor == 0)
  }

  /** The list a view shows, as `select` and `back` assign it. */
  predicate ShowsItems(lib: Library, m: Menu) {
    match m.view
    case Main => m.items == MainItems
    case LibrarySubmenu => m.items == LibraryItems
    case Artists => m.items == lib.artists
    case Albums => m.items == lib.albums
    case Songs => m.items == lib.songs
    case ArtistSongs => m.artist.Some? && Lookup(lib.songsByArtist, m.artist.value) == Some(m.items)
    case AlbumSongs => m.album.Some? && Lookup(lib.songsByAlbum, m.album.value) == Some(m.items)
  }

  /** The states the menu can reach from `Initial`. */
  predicate Valid(lib: Library, m: Menu) {
    && ShowsItems(lib, m)
    && InWindow(m.items, m.cursor, m.top)
    && (m.artist.Some? <==> m.view == ArtistSongs)
    && (m.album.Some? <==> m.view == AlbumSongs)
  }

  /** An index whose flat artist and album lists are the keys of its dicts, as `populate_music_lists` leaves it. */
  ghost predicate Indexed(lib: Library) {
    && (forall a :: a in lib.artists <==> Lookup(lib.songsByArtist, a).Some?)
    && (forall b :: b in lib.albums <==> Lookup(lib.songsByAlbum, b).Some?)
  }

  lemma InitialValid(lib: Library)
    ensures Valid(lib, Initial)
  {
  }

  /** `populate_music_lists` yields an index the menu can browse. */
  lemma PopulateIndexed(listing: Option<seq<string>>)
    ensures Indexed(Populate(listing))
  {
    PopulateSorted(listing);
  }

  /**
   * `up` (Music.py:317-324): one row up and scroll to keep it visible;
   * at the top row nothing moves unless the window is below the cursor.
   */
  function MoveUp(m: Menu): (r: Menu)
    ensures r.view == m.view && r.items == m.items && r.artist == m.artist && r.album == m.album
    ensures m.cursor > 0 ==> r.cursor == m.cursor - 1
    ensures InWindow(m.items, m.cursor, m.top) ==> InWindow(r.items, r.cursor, r.top)
    ensures InWindow(m.items, m.cursor, m.top) && m.cursor == 0 ==> r == m
  {
    if m.cursor > 0 then
      var c := m.cursor - 1;
      m.(cursor := c, top := if c < m.top then c else m.top)
    else if m.cursor == 0 && m.top > 0 then
      m.(top := m.top - 1, cursor := m.top - 1)
    else m
  }

  /**
   * `down` (Music.py:326-330): one row down and scroll to keep it visible;
   * on the last row nothing changes, the cursor does not wrap.
   */
  function MoveDown(m: Menu): (r: Menu)
    ensures r.view == m.view && r.items == m.items && r.artist == m.artist && r.album == m.album
    ensures m.cursor + 1 < |m.items| ==> r.cursor == m.cursor + 1
    ensures m.cursor + 1 >= |m.items| ==> r == m
    ensures InWindow(m.items, m.cursor, m.top) ==> InWindow(r.items, r.cursor, r.top)
  {
    if m.cursor < |m.items| - 1 then
      var c := m.cursor + 1;
      m.(cursor := c, top := if c >= m.top + ItemsPerScreen then c - ItemsPerScreen + 1 else m.top)
    else m
  }

  /** A new view, shown from its first row. */
  function Enter(m: Menu, v: View, items: seq<string>): (r: Menu)
    ensures r.view == v && r.items == items && r.cursor == 0 && r.top == 0
    ensures r.artist == m.artist && r.album == m.album
  {
    m.(view := v, items := items, cursor := 0, top := 0)
  }

  /**
   * `shuffle_play` (Music.py:301-308): `random.choice` picks the title at
   * `pick` (taken modulo the number of titles), which plays when it
   * resolves to a file name; with no titles, or none resolved, nothing
   * happens.
   */
  function ShufflePlay(lib: Library, pick: nat): (a: Action)
    ensures a == NoAction || a.PlayShuffle?
    ensures |lib.songs| == 0 ==> a == NoAction
    ensures |lib.songs| > 0 ==> (a.PlayShuffle? <==> FullFilename(lib, lib.songs[pick % |lib.songs|]).Some?)
    ensures |lib.songs| > 0 && a.PlayShuffle? ==> FullFilename(lib, lib.songs[pick % |lib.songs|]) == Some(a.file)
  {
    if |lib.songs| == 0 then NoAction
    else
      var song := lib.songs[pick % |lib.songs|];
      match FullFilename(lib, song)
      case Some(f) => PlayShuffle(f)
      case None => NoAction
  }

  /** On a populated index with at least one title, shuffle always finds a file to play. */
  lemma ShuffleAlwaysPlays(names: seq<string>, pick: nat)
    ensures |Populate(Some(names)).songs| > 0 ==> ShufflePlay(Populate(Some(names)), pick).PlayShuffle?
  {
    var lib := Populate(Some(names));
    if |lib.songs| > 0 {
      ListedTitlesResolve(names, lib.songs[pick % |lib.songs|]);
    }
  }

  /**
   * `select` (Music.py:251-299). Indexing past the end of a list raises
   * `IndexError`, looking up an absent key raises `KeyError`. The
   * "coming soon" message of Settings is drawn and the menu is unchanged.
   */
  function SelectItem(lib: Library, m: Menu, pick: nat): (r: Outcome)
    ensures r.Done? && r.menu.view != m.view ==> r.menu.cursor == 0 && r.menu.top == 0
    ensures r.Done? && r.menu.view == m.view ==> r.menu == m
    ensures r.Done? ==> r.action in {Refresh, NoAction} || r.action.Play? || r.action.PlayShuffle?
    ensures m.view == Main ==> (r.Raised? <==> m.cursor >= |MainItems|)
    ensures m.view == Main && m.cursor < |MainItems| && MainItems[m.cursor] == "Library" ==>
      r.Done? && r.menu.view == LibrarySubmenu && r.menu.items == LibraryItems && r.action == Refresh
    ensures m.view == Main && m.cursor < |MainItems| && MainItems[m.cursor] == "Shuffle" ==>
      r == Done(m, ShufflePlay(lib, pick))
    ensures m.view == Main && m.cursor < |MainItems| && MainItems[m.cursor] == "Settings" ==>
      r == Done(m, Refresh)
    ensures m.view == LibrarySubmenu && m.cursor >= |LibraryItems| ==> r == Raised(IndexError)
    ensures m.view == LibrarySubmenu && m.cursor < |LibraryItems| ==>
      && r.Done? && r.action == Refresh
      && r.menu.view == [Artists, Albums, Songs][m.cursor]
      && r.menu.items == [lib.artists, lib.albums, lib.songs][m.cursor]
    ensures m.view == Artists && m.cursor >= |lib.artists| ==> r == Raised(IndexError)
    ensures m.view == Artists && m.cursor < |lib.artists| ==>
      var a := lib.artists[m.cursor];
      && (r.Done? <==> Lookup(lib.songsByArtist, a).Some?)
      && (r.Raised? ==> r.fault == KeyError)
      && (r.Done? ==> r.menu.view == ArtistSongs && r.menu.artist == Some(a) && r.action == Refresh)
      && (r.Done? ==> Lookup(lib.songsByArtist, a) == Some(r.menu.items))
    ensures m.view == Albums && m.cursor >= |lib.albums| ==> r == Raised(IndexError)
    ensures m.view == Albums && m.cursor < |lib.albums| ==>
      var b := lib.albums[m.cursor];
      && (r.Done? <==> Lookup(lib.songsByAlbum, b).Some?)
      && (r.Raised? ==> r.fault == KeyError)
      && (r.Done? ==> r.menu.view == AlbumSongs && r.menu.album == Some(b) && r.action == Refresh)
      && (r.Done? ==> Lookup(lib.songsByAlbum, b) == Some(r.menu.items))
    ensures IsSongView(m.view) && m.cursor >= |m.items| ==> r == Raised(IndexError)
  {
    match m.view
    case Main =>
      if m.cursor >= |MainItems| then Raised(IndexError)
      else if MainItems[m.cursor] == "Library" then Done(Enter(m, LibrarySubmenu, LibraryItems), Refresh)
      else if MainItems[m.cursor] == "Shuffle" then Done(m, ShufflePlay(lib, pick))
      else Done(m, Refresh)
    case LibrarySubmenu =>
      if m.cursor >= |LibraryItems| then Raised(IndexError)
      else if LibraryItems[m.cursor] == "Artists" then Done(Enter(m, Artists, lib.artists), Refresh)
      else if LibraryItems[m.cursor] == "Songs" then Done(Enter(m, Songs, lib.songs), Refresh)
      else Done(Enter(m, Albums, lib.albums), Refresh)
    case Artists =>
      if m.cursor >= |lib.artists| then Raised(IndexError)
      else
        var a := lib.artists[m.cursor];
        (match Lookup(lib.songsByArtist, a)
         case None => Raised(KeyError)
         case Some(songs) => Done(Enter(m, ArtistSongs, songs).(artist := Some(a)), Refresh))
    case Albums =>
      if m.cursor >= |lib.albums| then Raised(IndexError)
      else
        var b := lib.albums[m.cursor];
        (match Lookup(lib.songsByAlbum, b)
         case None => Raised(KeyError)
         case Some(songs) => Done(Enter(m, AlbumSongs, songs).(album := Some(b)), Refresh))
    case _ =>
      if m.cursor >= |m.items| then Raised(IndexError)
      else
        match FullFilename(lib, m.items[m.cursor])
        case Some(f) => Done(m, Play(f))
        case None => Done(m, Refresh)
  }

  /**
   * `back` (Music.py:332-351): one level up, from the first row; in the
   * main view there is no level up and the result is false.
   */
  function GoBack(lib: Library, m: Menu): (r: (Menu, bool))
    ensures r.1 <==> m.view != Main
    ensures !r.1 ==> r.0 == m
    ensures r.1 ==> r.0.cursor == 0 && r.0.top == 0
    ensures m.view == LibrarySubmenu ==> r.0.view == Main && r.0.items == MainItems
    ensures m.view in {Artists, Albums, Songs} ==> r.0.view == LibrarySubmenu && r.0.items == LibraryItems
    ensures m.view == ArtistSongs ==> r.0.view == Artists && r.0.items == lib.artists && r.0.artist == None
    ensures m.view == AlbumSongs ==> r.0.view == Albums && r.0.items == lib.albums && r.0.album == None
    ensures m.view != ArtistSongs ==> r.0.artist == m.artist
    ensures m.view != AlbumSongs ==> r.0.album == m.album
  {
    match m.view
    case Main => (m, false)
    case LibrarySubmenu => (Enter(m, Main, MainItems), true)
    case ArtistSongs => (Enter(m, Artists, lib.artists).(artist := None), true)
    case AlbumSongs => (Enter(m, Albums, lib.albums).(album := None), true)
    case _ => (Enter(m, LibrarySubmenu, LibraryItems), true)
  }

  /** The keys `handle_input` reads as "back" (Music.py:362). */
  predicate IsBackKey(key: string) {
    key in {"`", "DEL", "ESC", "BKSP"}
  }

  /** `handle_input` (Music.py:353-367); `pick` is the index `random.choice` would draw. */
  function HandleInput(lib: Library, m: Menu, key: string, pick: nat): (r: Outcome)
    ensures key == ";" ==> r == Done(MoveUp(m), Up)
    ensures key == "." ==> r == Done(MoveDown(m), Down)
    ensures key in {"ENT", "SPC"} ==> r == SelectItem(lib, m, pick)
    ensures IsBackKey(key) && m.view == Main ==> r == Done(m, Exit)
    ensures IsBackKey(key) && m.view != Main ==> r == Done(GoBack(lib, m).0, Back)
    ensures key !in {";", ".", "ENT", "SPC"} && !IsBackKey(key) ==> r == Done(m, NoAction)
  {
    if key == ";" then Done(MoveUp(m), Up)
    else if key == "." then Done(MoveDown(m), Down)
    else if key == "ENT" || key == "SPC" then SelectItem(lib, m, pick)
    else if IsBackKey(key) then
      var (next, moved) := GoBack(lib, m);
      if moved then Done(next, Back) else Done(m, Exit)
    else Done(m, NoAction)
  }

  /** Moving the cursor keeps a reachable state reachable. */
  lemma MovesPreserveValid(lib: Library, m: Menu)
    requires Valid(lib, m)
    ensures Valid(lib, MoveUp(m)) && Valid(lib, MoveDown(m))
  {
  }

  /** Going back keeps a reachable state reachable. */
  lemma BackPreservesValid(lib: Library, m: Menu)
    requires Valid(lib, m)
    ensures Valid(lib, GoBack(lib, m).0)
  {
  }

  /** Selecting keeps a reachable state reachable. */
  lemma SelectPreservesValid(lib: Library, m: Menu, pick: nat)
    requires Valid(lib, m)
    ensures SelectItem(lib, m, pick).Done? ==> Valid(lib, SelectItem(lib, m, pick).menu)
  {
  }

  /**
   * On a populated index, `select` raises exactly when a list view shows
   * an empty list, and then it is an `IndexError`: the dict lookups of
   * lines 287 and 293 always find their key.
   */
  lemma SelectRaisesOnEmptyList(lib: Library, m: Menu, pick: nat)
    requires Valid(lib, m) && Indexed(lib)
    ensures SelectItem(lib, m, pick).Raised? <==> IsListView(m.view) && |m.items| == 0
    ensures SelectItem(lib, m, pick).Raised? ==> SelectItem(lib, m, pick).fault == IndexError
  {
    if m.view == Artists && m.cursor < |lib.artists| {
      assert lib.artists[m.cursor] in lib.artists;
    }
    if m.view == Albums && m.cursor < |lib.albums| {
      assert lib.albums[m.cursor] in lib.albums;
    }
  }

  /**
   * In a song view with a title under the cursor, `select` plays the file
   * the title resolves to, and otherwise asks for a redraw; the menu does
   * not change either way (Music.py:294-299).
   */
  lemma SelectSong(lib: Library, m: Menu, pick: nat)
    requires IsSongView(m.view) && m.cursor < |m.items|
    ensures SelectItem(lib, m, pick).Done? && SelectItem(lib, m, pick).menu == m
    ensures SelectItem(lib, m, pick).action.Play? <==> FullFilename(lib, m.items[m.cursor]).Some?
    ensures SelectItem(lib, m, pick).action.Play? ==>
      Some(SelectItem(lib, m, pick).action.file) == FullFilename(lib, m.items[m.cursor])
    ensures !SelectItem(lib, m, pick).action.Play? ==> SelectItem(lib, m, pick).action == Refresh
  {
  }

  /**
   * Every key keeps a reachable state reachable, and no key makes
   * `handle_input` return "select".
   */
  lemma HandleInputPreservesValid(lib: Library, m: Menu, key: string, pick: nat)
    requires Valid(lib, m)
    ensures HandleInput(lib, m, key, pick).Done? ==> Valid(lib, HandleInput(lib, m, key, pick).menu)
    ensures HandleInput(lib, m, key, pick).Done? ==> HandleInput(lib, m, key, pick).action != Select
  {
    MovesPreserveValid(lib, m);
    BackPreservesValid(lib, m);
    SelectPreservesValid(lib, m, pick);
  }
}

=== FILE: musicapp.dfy ===
/**
 * `main_loop` of Music.py (Music.py:373-433) without its hardware: each
 * key of a batch goes through `handle_input`; the result picks a click
 * sound, starts playback of a resolved file, or ends the app. The SD card
 * is a map from file names to contents, the random title pick, the key
 * press that stops playback and the clock readings are parameters.
 */
module MusicApp {
  import opened Wrappers
  import opened MusicLibrary
  import opened Wav
  import opened Menu

  /** The notes of the click sounds (Music.py:384-389, 428-429). */
  const UpNotes: seq<string> := ["G3", "B3"]
  const DownNotes: seq<string> := ["D3", "B3"]
  const SelectNotes: seq<string> := ["G3", "B3", "D3"]
  const BackNotes: seq<string> := ["D3", "B3", "G3"]

  /** The sound played for an action; empty for actions without one. */
  function Sound(a: Action): (notes: seq<string>)
    ensures notes == SelectNotes <==> a == Select
    ensures notes == [] <==> !(a in {Up, Down, Select, Back})
  {
    match a
    case Up => UpNotes
    case Down => DownNotes
    case Select => SelectNotes
    case Back => BackNotes
    case _ => []
  }

  /**
   * What became of one playback: the chunks handed to the audio output and,
   * for each chunk, whether the play screen was redrawn after it; or the
   * error shown.
   */
  datatype Playback = Played(chunks: seq<seq<byte>>, redraws: seq<bool>) | Failed

  /** The intended redraw period, `_UPDATE_INTERVAL` (Music.py:35). */
  const UpdateInterval := 1000

  /**
   * The redraw test as written (Music.py:417): redraw after a chunk when
   * the millisecond clock read then is a multiple of 1000.
   */
  function RedrawsAsWritten(clock: seq<nat>): (fired: seq<bool>)
    ensures |fired| == |clock|
  {
    seq(|clock|, i requires 0 <= i < |clock| => clock[i] % 1000 == 0)
  }

  /**
   * The evidently intended redraw test: redraw after a chunk when at
   * least `UpdateInterval` ms have passed since the last redraw (or since
   * `last`, the start of playback).
   */
  function Redraws(last: int, clock: seq<nat>): (fired: seq<bool>)
    ensures |fired| == |clock|
    ensures |clock| > 0 ==> (fired[0] <==> clock[0] - last >= UpdateInterval)
    ensures forall k :: 0 <= k < |clock| && fired[k] ==> clock[k] - last >= UpdateInterval
    decreases |clock|
  {
    if |clock| == 0 then []
    else
      var due := clock[0] - last >= UpdateInterval;
      var rest := Redraws(if due then clock[0] else last, clock[1..]);
      assert forall k :: 1 <= k < |clock| ==> ([due] + rest)[k] == rest[k - 1] && clock[k] == clock[1..][k - 1];
      [due] + rest
  }

  /**
   * What the test as written does get right: two redraws at different
   * readings are at least `UpdateInterval` ms apart, as both readings are
   * multiples of 1000.
   */
  lemma AsWrittenSpaced(clock: seq<nat>, i: nat, j: nat)
    requires i < |clock| && j < |clock|
    requires RedrawsAsWritten(clock)[i] && RedrawsAsWritten(clock)[j] && clock[i] < clock[j]
    ensures clock[j] - clock[i] >= UpdateInterval
  {
    var qi, qj := clock[i] / 1000, clock[j] / 1000;
    assert clock[i] == 1000 * qi && clock[j] == 1000 * qj;
    assert qi < qj;
    assert clock[j] - clock[i] == 1000 * (qj - qi);
  }

  /** The clock never runs backwards over the readings. */
  predicate Monotone(clock: seq<nat>) {
    forall p, q :: 0 <= p <= q < |clock| ==> clock[p] <= clock[q]
  }

  /** Clocks read over a playback of 2 s at which the test as written never redraws. */
  const SkippingClock: seq<nat> := [1, 999, 1001, 1999, 2001]

  /**
   * The test as written can go two seconds without a redraw: the clock
   * readings over a playback need not hit a multiple of 1000.
   */
  lemma AsWrittenSkipsRedraw()
    ensures Monotone(SkippingClock)
    ensures SkippingClock[|SkippingClock| - 1] - SkippingClock[0] >= 2 * UpdateInterval
    ensures forall i :: 0 <= i < |SkippingClock| ==> !RedrawsAsWritten(SkippingClock)[i]
    ensures Redraws(0, SkippingClock) == [false, false, true, false, true]
  {
    var c := SkippingClock;
    assert c[1..] == [999, 1001, 1999, 2001] && c[2..] == [1001, 1999, 2001];
    assert c[3..] == [1999, 2001] && c[4..] == [2001];
    assert c[1..][1..] == c[2..] && c[2..][1..] == c[3..] && c[3..][1..] == c[4..] && c[4..][1..] == [];
  }

  /** A redraw becomes due by reading `j` when that reading is `UpdateInterval` past `last`. */
  lemma {:induction false} RedrawDue(last: int, clock: seq<nat>, j: nat)
    requires j < |clock| && clock[j] - last >= UpdateInterval
    ensures exists k :: 0 <= k <= j && Redraws(last, clock)[k]
    decreases |clock|
  {
    var fired := Redraws(last, clock);
    if !fired[0] {
      var rest := Redraws(last, clock[1..]);
      assert fired == [false] + rest;
      RedrawDue(last, clock[1..], j - 1);
      var k :| 0 <= k <= j - 1 && rest[k];
      assert fired[k + 1];
    }
  }

  /**
   * With the intended test, any stretch of readings spanning at least
   * `UpdateInterval` ms contains a redraw.
   */
  lemma {:induction false} WindowHasRedraw(last: int, clock: seq<nat>, i: nat, j: nat)
    requires Monotone(clock) && |clock| > 0 && last <= clock[0]
    requires i <= j < |clock| && clock[j] - clock[i] >= UpdateInterval
    ensures exists k :: i <= k <= j && Redraws(last, clock)[k]
    decreases |clock|
  {
    var fired := Redraws(last, clock);
    if i == 0 {
      RedrawDue(last, clock, j);
    } else {
      var next := if fired[0] then clock[0] else last;
      var rest := Redraws(next, clock[1..]);
      assert fired == [fired[0]] + rest;
      assert clock[0] <= clock[1];
      assert Monotone(clock[1..]) by {
        forall p, q | 0 <= p <= q < |clock| - 1 ensures clock[1..][p] <= clock[1..][q] {
          assert clock[1..][p] == clock[p + 1] && clock[1..][q] == clock[q + 1];
        }
      }
      WindowHasRedraw(next, clock[1..], i - 1, j - 1);
      var k :| i - 1 <= k <= j - 1 && rest[k];
      assert fired[k + 1];
    }
  }

  /**
   * With the intended test, two redraws are at least `UpdateInterval` ms
   * apart, whatever the readings.
   */
  lemma {:induction false} RedrawsSpaced(last: int, clock: seq<nat>, i: nat, j: nat)
    requires i < j < |clock| && Redraws(last, clock)[i] && Redraws(last, clock)[j]
    ensures clock[j] - clock[i] >= UpdateInterval
    decreases |clock|
  {
    var fired := Redraws(last, clock);
    var next := if fired[0] then clock[0] else last;
    var rest := Redraws(next, clock[1..]);
    assert fired == [fired[0]] + rest;
    assert rest[j - 1] && clock[1..][j - 1] == clock[j];
    if i > 0 {
      assert rest[i - 1] && clock[1..][i - 1] == clock[i];
      RedrawsSpaced(next, clock[1..], i - 1, j - 1);
    } else {
      assert next == clock[0] && clock[1..][j - 1] - next >= UpdateInterval;
    }
  }

  /**
   * The `try` block of Music.py:393-426: open the file (a missing file
   * raises), read the doubled rate from its header, divide by it for the
   * duration (a zero rate raises `ZeroDivisionError` before anything is
   * written), seek to byte 44 and pump. Any exception ends in the error
   * overlay with nothing more written.
   */
  function PlayFile(disk: map<string, seq<byte>>, name: string, interrupt: Option<nat>, clock: seq<nat>): (p: Playback)
    ensures p.Played? <==> name in disk && ReadWavHeader(disk[name]).rate != 0
    ensures p.Played? ==> p.chunks == Pump(disk[name], HeaderSize, interrupt)
    ensures p.Played? ==> |p.redraws| == if |clock| < |p.chunks| then |clock| else |p.chunks|
    ensures p.Played? ==> forall i :: 0 <= i < |p.redraws| ==> (p.redraws[i] <==> clock[i] % UpdateInterval == 0)
  {
    if name !in disk then Failed
    else
      var file := disk[name];
      var rate := ReadWavHeader(file).rate;
      if rate == 0 then Failed
      else
        var chunks := Pump(file, HeaderSize, interrupt);
        var readings := if |clock| < |chunks| then clock else clock[..|chunks|];
        Played(chunks, RedrawsAsWritten(readings))
  }

  /**
   * Played without a key press, a file of at least 44 bytes sends exactly
   * its bytes after the header, in well-sized chunks; a key press leaves a
   * prefix of them.
   */
  lemma PlayFileWrites(disk: map<string, seq<byte>>, name: string, interrupt: Option<nat>, clock: seq<nat>)
    requires PlayFile(disk, name, interrupt, clock).Played? && |disk[name]| >= HeaderSize
    ensures var chunks := PlayFile(disk, name, interrupt, clock).chunks;
      && WellSized(chunks)
      && Concat(chunks) <= disk[name][HeaderSize..]
      && (interrupt.None? ==> Concat(chunks) == disk[name][HeaderSize..])
  {
    var file := disk[name];
    PumpChunkSizes(file, HeaderSize, interrupt);
    match interrupt
    case None => PumpWritesRest(file, HeaderSize);
    case Some(k) => PumpInterrupted(file, HeaderSize, k);
  }

  /** A file whose header carries a non-zero 32-bit rate at bytes 24..27 is played. */
  lemma PlayFileOfRate(disk: map<string, seq<byte>>, name: string, rate: nat, interrupt: Option<nat>, clock: seq<nat>)
    requires name in disk && |disk[name]| >= HeaderSize
    requires 0 < rate < Pow256(4) && disk[name][24..28] == ToLittleEndian(rate, 4)
    ensures PlayFile(disk, name, interrupt, clock).Played?
    ensures PlayFile(disk, name, interrupt, clock).chunks == Pump(disk[name], HeaderSize, interrupt)
  {
    HeaderOfRate(disk[name], rate);
  }

  /**
   * The environment of one key: the index `random.choice` draws, the poll
   * that sees a key during playback, and the clock read after each chunk.
   */
  datatype KeyInput = KeyInput(key: string, pick: nat, interrupt: Option<nat>, clock: seq<nat>)

  /** What one key does to the app. */
  datatype Step =
    | Continue(menu: Menu, notes: seq<string>, playback: Option<Playback>)
    | Quit
    | Crash(fault: Fault)

  /**
   * One iteration of the inner `for` loop (Music.py:381-431): handle the
   * key, play its sound, play a selected file, or return on "exit". An
   * exception from `handle_input` is not caught there and ends the app.
   */
  function StepKey(lib: Library, disk: map<string, seq<byte>>, m: Menu, input: KeyInput): (s: Step)
    ensures s.Continue? ==> s.notes != SelectNotes
  {
    match HandleInput(lib, m, input.key, input.pick)
    case Raised(e) => Crash(e)
    case Done(next, a) =>
      if a == Exit then Quit
      else
        var playback := if a.Play? || a.PlayShuffle? then Some(PlayFile(disk, a.file, input.interrupt, input.clock)) else None;
        Continue(next, Sound(a), playback)
  }

  /**
   * A step crashes exactly when `handle_input` raises, quits exactly on
   * "exit", and otherwise moves to the menu `handle_input` left and plays
   * a file exactly for a play action.
   */
  lemma StepKeyFollowsInput(lib: Library, disk: map<string, seq<byte>>, m: Menu, input: KeyInput)
    ensures var s := StepKey(lib, disk, m, input);
      var h := HandleInput(lib, m, input.key, input.pick);
      && (s.Crash? <==> h.Raised?)
      && (s == Quit <==> h == Done(m, Exit))
      && (s.Continue? ==> h.Done? && s.menu == h.menu)
      && (s.Continue? ==> (s.playback.Some? <==> h.action.Play? || h.action.PlayShuffle?))
      && (s.Continue? && s.playback.Some? ==>
            s.playback.value == PlayFile(disk, h.action.file, input.interrupt, input.clock))
      && (s.Continue? ==> s.notes == Sound(h.action))
  {
  }

  /**
   * The keys of one `kb.get_new_keys()` batch, in order: the menu after
   * them and the steps they caused. The batch stops early only at a step
   * that ends the app (an exit or an exception); every earlier step goes
   * on.
   */
  function RunKeys(lib: Library, disk: map<string, seq<byte>>, m: Menu, keys: seq<KeyInput>): (r: (Menu, seq<Step>))
    ensures |r.1| <= |keys|
    ensures forall i :: 0 <= i < |r.1| - 1 ==> r.1[i].Continue?
    ensures |r.1| < |keys| ==> |r.1| > 0 && !r.1[|r.1| - 1].Continue?
    ensures forall i :: 0 <= i < |r.1| ==> r.1[i].Continue? ==> r.1[i].notes != SelectNotes
    decreases |keys|, 1
  {
    if |keys| == 0 then (m, [])
    else RunAfter(lib, disk, m, StepKey(lib, disk, m, keys[0]), keys[1..])
  }

  /** The rest of a batch once the key pressed on menu `m` has caused step `s`. */
  function RunAfter(lib: Library, disk: map<string, seq<byte>>, m: Menu, s: Step, keys: seq<KeyInput>): (r: (Menu, seq<Step>))
    requires s.Continue? ==> s.notes != SelectNotes
    ensures 0 < |r.1| <= |keys| + 1 && r.1[0] == s
    ensures forall i :: 0 <= i < |r.1| - 1 ==> r.1[i].Continue?
    ensures |r.1| < |keys| + 1 ==> !r.1[|r.1| - 1].Continue?
    ensures forall i :: 0 <= i < |r.1| ==> r.1[i].Continue? ==> r.1[i].notes != SelectNotes
    decreases |keys| + 1, 0
  {
    if !s.Continue? then (m, [s])
    else
      var rest := RunKeys(lib, disk, s.menu, keys);
      ConsStep(s, rest.1);
      (rest.0, [s] + rest.1)
  }

  /**
   * Each step of a batch is `StepKey` on its key and the menu the step
   * before it left.
   */
  lemma {:induction false} RunKeysFollowsKeys(lib: Library, disk: map<string, seq<byte>>, m: Menu, keys: seq<KeyInput>)
    ensures var r := RunKeys(lib, disk, m, keys);
      && (|keys| > 0 ==> r.1[0] == StepKey(lib, disk, m, keys[0]))
      && (forall i :: 0 < i < |r.1| ==> r.1[i] == StepKey(lib, disk, r.1[i - 1].menu, keys[i]))
    decreases |keys|, 1
  {
    if |keys| > 0 {
      var s := StepKey(lib, disk, m, keys[0]);
      var r := RunKeys(lib, disk, m, keys);
      assert r == RunAfter(lib, disk, m, s, keys[1..]);
      RunAfterFollows(lib, disk, m, s, keys[1..]);
      forall i | 0 < i < |r.1|
        ensures r.1[i] == StepKey(lib, disk, r.1[i - 1].menu, keys[i])
      {
        assert keys[1..][i - 1] == keys[i];
      }
    }
  }

  /** The same for the rest of a batch after step `s`, the keys shifted by one. */
  lemma {:induction false} RunAfterFollows(lib: Library, disk: map<string, seq<byte>>, m: Menu, s: Step, keys: seq<KeyInput>)
    requires s.Continue? ==> s.notes != SelectNotes
    ensures var r := RunAfter(lib, disk, m, s, keys);
      && (forall i :: 0 < i < |r.1| ==> r.1[i] == StepKey(lib, disk, r.1[i - 1].menu, keys[i - 1]))
    decreases |keys| + 1, 0
  {
    if s.Continue? {
      var rest := RunKeys(lib, disk, s.menu, keys);
      RunKeysFollowsKeys(lib, disk, s.menu, keys);
      var all := [s] + rest.1;
      forall i | 0 < i < |all|
        ensures all[i] == StepKey(lib, disk, all[i - 1].menu, keys[i - 1])
      {
        if i == 1 {
          assert all[1] == rest.1[0] && all[0] == s;
        } else {
          assert all[i] == rest.1[i - 1] && all[i - 1] == rest.1[i - 2];
        }
      }
    }
  }

  /**
   * A batch ends in the menu its last step left when that step goes on,
   * and otherwise in the menu the step before it left (the one it started
   * from, for a batch whose first step ends the app).
   */
  lemma {:induction false} RunKeysEndMenu(lib: Library, disk: map<string, seq<byte>>, m: Menu, keys: seq<KeyInput>)
    ensures var r := RunKeys(lib, disk, m, keys);
      r.0 == if |r.1| > 0 && r.1[|r.1| - 1].Continue? then r.1[|r.1| - 1].menu
             else if |r.1| > 1 then r.1[|r.1| - 2].menu else m
    decreases |keys|, 1
  {
    if |keys| > 0 {
      RunAfterEndMenu(lib, disk, m, StepKey(lib, disk, m, keys[0]), keys[1..]);
    }
  }

  /** The same for the rest of a batch after step `s`. */
  lemma {:induction false} RunAfterEndMenu(lib: Library, disk: map<string, seq<byte>>, m: Menu, s: Step, keys: seq<KeyInput>)
    requires s.Continue? ==> s.notes != SelectNotes
    ensures var r := RunAfter(lib, disk, m, s, keys);
      r.0 == if r.1[|r.1| - 1].Continue? then r.1[|r.1| - 1].menu
             else if |r.1| > 1 then r.1[|r.1| - 2].menu else m
    decreases |keys| + 1, 0
  {
    if s.Continue? {
      var rest := RunKeys(lib, disk, s.menu, keys);
      RunKeysEndMenu(lib, disk, s.menu, keys);
      var all := [s] + rest.1;
      assert all[|all| - 1] == if |rest.1| > 0 then rest.1[|rest.1| - 1] else s;
      assert |all| > 1 ==> all[|all| - 2] == if |rest.1| > 1 then rest.1[|rest.1| - 2] else s;
    }
  }

  /** A quiet step that goes on, put in front of a run, keeps the run's shape. */
  lemma ConsStep(s: Step, steps: seq<Step>)
    requires s.Continue? && s.notes != SelectNotes
    requires forall i :: 0 <= i < |steps| - 1 ==> steps[i].Continue?
    requires forall i :: 0 <= i < |steps| ==> steps[i].Continue? ==> steps[i].notes != SelectNotes
    ensures forall i :: 0 <= i < |steps| ==> ([s] + steps)[i].Continue?
    ensures forall i :: 0 <= i <= |steps| ==> ([s] + steps)[i].Continue? ==> ([s] + steps)[i].notes != SelectNotes
    ensures |steps| > 0 ==> ([s] + steps)[|steps|] == steps[|steps| - 1]
  {
    assert forall i :: 1 <= i <= |steps| ==> ([s] + steps)[i] == steps[i - 1];
  }

  /** A batch of keys leaves a well-formed menu well-formed. */
  lemma {:induction false} RunKeysPreservesValid(lib: Library, disk: map<string, seq<byte>>, m: Menu, keys: seq<KeyInput>)
    requires Valid(lib, m)
    ensures Valid(lib, RunKeys(lib, disk, m, keys).0)
    decreases |keys|
  {
    if |keys| > 0 {
      var s := StepKey(lib, disk, m, keys[0]);
      if s.Continue? {
        HandleInputPreservesValid(lib, m, keys[0].key, keys[0].pick);
        StepKeyFollowsInput(lib, disk, m, keys[0]);
        RunKeysPreservesValid(lib, disk, s.menu, keys[1..]);
      }
    }
  }
}

=== FILE: ordering.dfy ===
/**
 * Code-point ordering of strings, as Python's `<` on `str` compares them,
 * and the two list operations the music index uses on top of it:
 * `list.sort()` and the "append unless already present" deduplication.
 */
module Ordering {

  /** Lexicographic order by code point: Python's `a <= b` on strings. */
  predicate StrLe(a: string, b: string)
    decreases |a|
  {
    if |a| == 0 then true
    else if |b| == 0 then false
    else if a[0] != b[0] then a[0] < b[0]
    else StrLe(a[1..], b[1..])
  }

  lemma {:induction false} StrLeTotal(a: string, b: string)
    ensures StrLe(a, b) || StrLe(b, a)
    decreases |a|
  {
    if |a| > 0 && |b| > 0 && a[0] == b[0] {
      StrLeTotal(a[1..], b[1..]);
    }
  }

  lemma {:induction false} StrLeAntisymmetric(a: string, b: string)
    requires StrLe(a, b) && StrLe(b, a)
    ensures a == b
    decreases |a|
  {
    if |a| > 0 {
      StrLeAntisymmetric(a[1..], b[1..]);
      assert a == [a[0]] + a[1..] && b == [b[0]] + b[1..];
    }
  }

  lemma {:induction false} StrLeTransitive(a: string, b: string, c: string)
    requires StrLe(a, b) && StrLe(b, c)
    ensures StrLe(a, c)
    decreases |a|
  {
    if |a| > 0 && |b| > 0 && |c| > 0 && a[0] == b[0] && b[0] == c[0] {
      StrLeTransitive(a[1..], b[1..], c[1..]);
    }
  }

  /** Every earlier element is at most every later one. */
  ghost predicate Sorted(s: seq<string>) {
    forall i, j :: 0 <= i < j < |s| ==> StrLe(s[i], s[j])
  }

  /** No value occurs twice. */
  ghost predicate NoDup<T>(s: seq<T>) {
    forall i, j :: 0 <= i < j < |s| ==> s[i] != s[j]
  }

  /** A list headed by a value no greater than anything after it stays sorted. */
  lemma SortedCons(h: string, t: seq<string>)
    requires Sorted(t)
    requires forall y :: y in t ==> StrLe(h, y)
    ensures Sorted([h] + t)
  {
    var s := [h] + t;
    forall i, j | 0 <= i < j < |s| ensures StrLe(s[i], s[j]) {
      if i > 0 {
        assert s[i] == t[i - 1] && s[j] == t[j - 1];
      } else {
        assert s[j] == t[j - 1] && s[j] in t;
      }
    }
  }

  /** A duplicate-free list headed by a value it does not repeat stays duplicate-free. */
  lemma NoDupCons(h: string, t: seq<string>)
    ensures NoDup(t) && h !in t ==> NoDup([h] + t)
  {
    if NoDup(t) && h !in t {
      var s := [h] + t;
      forall i, j | 0 <= i < j < |s| ensures s[i] != s[j] {
        assert s[j] == t[j - 1];
        if i > 0 { assert s[i] == t[i - 1]; }
      }
    }
  }

  /** The tail of a duplicate-free list is duplicate-free and misses the head. */
  lemma NoDupTail(s: seq<string>)
    requires |s| > 0
    ensures NoDup(s) ==> NoDup(s[1..]) && s[0] !in s[1..]
  {
    if NoDup(s) {
      forall i, j | 0 <= i < j < |s[1..]| ensures s[1..][i] != s[1..][j] {
        assert s[1..][i] == s[i + 1] && s[1..][j] == s[j + 1];
      }
      forall j | 0 <= j < |s[1..]| ensures s[1..][j] != s[0] {
        assert s[1..][j] == s[j + 1];
      }
    }
  }

  /** Inserts `x` into the sorted list `s` before the first element it does not exceed. */
  function Insert(x: string, s: seq<string>): (r: seq<string>)
    requires Sorted(s)
    ensures Sorted(r)
    ensures multiset(r) == multiset(s) + multiset{x}
    ensures forall y :: y in r <==> y == x || y in s
    ensures x !in s && NoDup(s) ==> NoDup(r)
  {
    if |s| == 0 then [x]
    else if StrLe(x, s[0]) then
      assert forall y :: y in s ==> StrLe(x, y) by {
        forall y | y in s ensures StrLe(x, y) {
          var j :| 0 <= j < |s| && s[j] == y;
          if j > 0 { StrLeTransitive(x, s[0], s[j]); }
        }
      }
      SortedCons(x, s);
      NoDupCons(x, s);
      [x] + s
    else
      StrLeTotal(x, s[0]);
      assert s == [s[0]] + s[1..];
      assert Sorted(s[1..]) by {
        forall i, j | 0 <= i < j < |s[1..]| ensures StrLe(s[1..][i], s[1..][j]) {
          assert s[1..][i] == s[i + 1] && s[1..][j] == s[j + 1];
        }
      }
      var rest := Insert(x, s[1..]);
      assert forall y :: y in rest ==> StrLe(s[0], y) by {
        forall y | y in rest ensures StrLe(s[0], y) {
          if y != x {
            var j :| 1 <= j < |s| && s[j] == y;
          }
        }
      }
      SortedCons(s[0], rest);
      NoDupTail(s);
      NoDupCons(s[0], rest);
      [s[0]] + rest
  }

  /** Python's `list.sort()` on strings: the sorted permutation of `s`. */
  function Sort(s: seq<string>): (r: seq<string>)
    ensures Sorted(r)
    ensures multiset(r) == multiset(s)
    ensures forall y :: y in r <==> y in s
    ensures NoDup(s) ==> NoDup(r)
  {
    if |s| == 0 then []
    else
      assert s == [s[0]] + s[1..];
      Insert(s[0], Sort(s[1..]))
  }

  /** Appends each value of `s` unless it is already present, keeping first occurrences in order. */
  function Dedup(s: seq<string>): (r: seq<string>)
    ensures NoDup(r)
    ensures forall x :: x in r <==> x in s
  {
    if |s| == 0 then []
    else
      var prev := Dedup(s[..|s| - 1]);
      var x := s[|s| - 1];
      assert forall y :: y in s <==> y in s[..|s| - 1] || y == x;
      if x in prev then prev else prev + [x]
  }
}

=== FILE: playscreen.dfy ===
/**
 * The pure text helpers of `display_play_screen` and `format_time`
 * (Music.py:99-158): the track information lines, their truncation to
 * the width of the small font, and the `mm:ss` clock.
 */
module PlayScreen {
  import opened Text
  import opened MusicLibrary

  const DisplayWidth := 240
  const SmallCharWidth := 8
  /** Characters of the small font that fit on one line: 240 / 8 = 30. */
  const SmallCharsPerScreen := DisplayWidth / SmallCharWidth
  const Ellipsis: string := "..."

  /** Lines longer than the screen keep their first 27 characters followed by "...". */
  function Truncate(text: string): (r: string)
    ensures |r| <= SmallCharsPerScreen
    ensures |text| <= SmallCharsPerScreen ==> r == text
    ensures |text| > SmallCharsPerScreen ==>
      |r| == SmallCharsPerScreen && r[..SmallCharsPerScreen - 3] == text[..SmallCharsPerScreen - 3]
    ensures |text| > SmallCharsPerScreen ==> r[SmallCharsPerScreen - 3..] == Ellipsis
  {
    if |text| > SmallCharsPerScreen then text[..SmallCharsPerScreen - 3] + Ellipsis else text
  }

  /** A truncated line fits, so truncating it again changes nothing. */
  lemma TruncateIdempotent(text: string)
    ensures Truncate(Truncate(text)) == Truncate(text)
  {
  }

  /**
   * The information lines for the file being played (Music.py:107-117):
   * the name up to its last '.', split on " - ", gives artist, album and
   * song lines when it has three parts, and a single "Playing:" line
   * otherwise.
   */
  function PlayInfo(file: string): (lines: seq<string>)
    ensures |lines| == 1 || |lines| == 3
    ensures |lines| == 1 <==> |Split(BeforeLastDot(file), Sep)| != 3
    ensures |lines| == 1 ==> lines[0] == "Playing: " + file
    ensures |lines| == 3 ==> var parts := Split(BeforeLastDot(file), Sep);
      lines == ["Artist: " + parts[0], "Album: " + parts[1], "Song: " + parts[2]]
  {
    var parts := Split(BeforeLastDot(file), Sep);
    if |parts| == 3 then ["Artist: " + parts[0], "Album: " + parts[1], "Song: " + parts[2]]
    else ["Playing: " + file]
  }

  /** The lines drawn on the play screen, each cut to the screen width (Music.py:123-131). */
  function DisplayLines(file: string): (lines: seq<string>)
    ensures |lines| == |PlayInfo(file)|
    ensures forall i :: 0 <= i < |lines| ==> |lines[i]| <= SmallCharsPerScreen
    ensures forall i :: 0 <= i < |lines| ==> lines[i] == Truncate(PlayInfo(file)[i])
  {
    seq(|PlayInfo(file)|, i requires 0 <= i < |PlayInfo(file)| => Truncate(PlayInfo(file)[i]))
  }

  /**
   * The play screen shows the three parts of every indexed file: the
   * screen and the index read a file name the same way.
   */
  lemma PlayInfoOfTrack(name: string)
    requires ParseTrack(name).Some?
    ensures var t := ParseTrack(name).value;
      PlayInfo(name) == ["Artist: " + t.artist, "Album: " + t.album, "Song: " + t.song]
  {
    var stem := name[..|name| - 4];
    assert name == stem + "." + "wav";
    BeforeLastDotOf(stem, "wav");
  }

  /** A name without '.' and without " - " is shown whole on one "Playing:" line. */
  lemma PlayInfoOfPlainName(file: string)
    requires '.' !in file && ' ' !in file
    ensures PlayInfo(file) == ["Playing: " + file]
  {
    SplitField(file, Sep);
  }

  /** The character of a decimal digit. */
  function Digit(d: nat): char
    requires d < 10
  {
    "0123456789"[d]
  }

  /** The value of a decimal digit character. */
  function DigitValue(c: char): nat {
    if '0' <= c <= '9' then (c - '0') as nat else 0
  }

  predicate IsDigits(s: string) {
    forall i :: 0 <= i < |s| ==> '0' <= s[i] <= '9'
  }

  /** `str(n)` for a natural number: its decimal digits without leading zeros. */
  function Decimal(n: nat): (r: string)
    ensures |r| >= 1 && IsDigits(r)
    ensures |r| == 1 || r[0] != '0'
    ensures n < 10 <==> |r| == 1
  {
    if n < 10 then [Digit(n)] else Decimal(n / 10) + [Digit(n % 10)]
  }

  /** A digit's character has that digit's value. */
  lemma DigitRoundTrip(d: nat)
    requires d < 10
    ensures DigitValue(Digit(d)) == d
  {
  }

  /** The number a string of decimal digits denotes. */
  function ParseDecimal(s: string): nat {
    if |s| == 0 then 0 else 10 * ParseDecimal(s[..|s| - 1]) + DigitValue(s[|s| - 1])
  }

  /** Reading back the digits `Decimal` writes gives the number. */
  lemma {:induction false} DecimalRoundTrip(n: nat)
    ensures ParseDecimal(Decimal(n)) == n
  {
    if n >= 10 {
      var r, init := Decimal(n), Decimal(n / 10);
      assert r == init + [Digit(n % 10)];
      assert r[..|r| - 1] == init;
      DecimalRoundTrip(n / 10);
      DigitRoundTrip(n % 10);
      assert ParseDecimal(r) == 10 * ParseDecimal(init) + DigitValue(r[|r| - 1]);
    } else {
      DigitRoundTrip(n);
    }
  }

  /** A leading zero does not change the value of a digit string. */
  lemma {:induction false} LeadingZero(s: string)
    ensures ParseDecimal("0" + s) == ParseDecimal(s)
  {
    if |s| > 0 {
      assert ("0" + s)[..|s|] == "0" + s[..|s| - 1];
      LeadingZero(s[..|s| - 1]);
    }
  }

  /**
   * Python's `f"{n:02d}"`: at least two characters, zero-padded when
   * non-negative; a negative number is its sign and digits, already two
   * characters or more.
   */
  function Pad2(n: int): (r: string)
    ensures |r| >= 2
    ensures 0 <= n < 100 ==> |r| == 2 && IsDigits(r)
    ensures n < 0 <==> r[0] == '-'
  {
    if n < 0 then "-" + Decimal(-n)
    else if n < 10 then "0" + Decimal(n)
    else Decimal(n)
  }

  /** A padded non-negative number reads back as itself. */
  lemma Pad2RoundTrip(n: nat)
    ensures ParseDecimal(Pad2(n)) == n
  {
    DecimalRoundTrip(n);
    if n < 10 {
      LeadingZero(Decimal(n));
    }
  }

  /**
   * `format_time` (Music.py:156-158): minutes and seconds of
   * `divmod(seconds, 60)`, each formatted with `02d`. Python's `divmod`
   * floors, which for the divisor 60 is Dafny's `/` and `%`.
   */
  function FormatTime(seconds: int): (r: string)
    ensures |r| >= 5
    ensures r[|r| - 3] == ':' && IsDigits(r[|r| - 2..])
    ensures 0 <= seconds < 6000 ==> |r| == 5
  {
    Pad2(seconds / 60) + ":" + Pad2(seconds % 60)
  }

  /** Reads an `m:ss` clock back into seconds: minutes before the colon, two digits after it. */
  function ReadTime(clock: string): int
    requires |clock| >= 3
  {
    60 * ParseDecimal(clock[..|clock| - 3]) + ParseDecimal(clock[|clock| - 2..])
  }

  /** The clock of a non-negative time reads back as that time. */
  lemma FormatTimeRoundTrip(seconds: nat)
    ensures ReadTime(FormatTime(seconds)) == seconds
  {
    var minutes, secs := seconds / 60, seconds % 60;
    ReadClock(Pad2(minutes), Pad2(secs));
    Pad2RoundTrip(minutes);
    Pad2RoundTrip(secs);
  }

  /** A clock reads back as the minutes before its colon and the two digits after it. */
  lemma ReadClock(mm: string, ss: string)
    requires |ss| == 2
    ensures ReadTime(mm + ":" + ss) == 60 * ParseDecimal(mm) + ParseDecimal(ss)
  {
    var r := mm + ":" + ss;
    assert r[..|r| - 3] == mm;
    assert r[|r| - 2..] == ss;
  }

  /** Before the colon stands a negative number exactly when the time is negative. */
  lemma FormatTimeSign(seconds: int)
    ensures FormatTime(seconds)[0] == '-' <==> seconds < 0
  {
  }
}

=== FILE: text.dfy ===
/**
 * The string operations the two apps apply to file names: `str.endswith`,
 * `str.split(sep)`, `str.rsplit('.', 1)[0]` and `str.lower()` on the ASCII letters.
 */
module Text {
  import opened Wrappers

  /** Python's `s.endswith(suffix)`. */
  predicate EndsWith(s: string, suffix: string) {
    |suffix| <= |s| && s[|s| - |suffix|..] == suffix
  }

  /** `sep` occurs in `s` starting at index `i`. */
  predicate OccursAt(s: string, sep: string, i: nat) {
    i + |sep| <= |s| && s[i..i + |sep|] == sep
  }

  /** `sep` occurs somewhere in `s` (Python's `sep in s`). */
  predicate Contains(s: string, sep: string) {
    exists i: nat | i <= |s| :: OccursAt(s, sep, i)
  }

  /** A slice of the tail of `s` is the slice of `s` one further on. */
  lemma SliceOfTail(s: string, j: nat, n: nat)
    requires j + 1 + n <= |s|
    ensures s[1..][j..j + n] == s[j + 1..j + 1 + n]
  {
    var shifted, direct := s[1..][j..j + n], s[j + 1..j + 1 + n];
    forall k | 0 <= k < n ensures shifted[k] == direct[k] {
      assert shifted[k] == s[j + 1 + k];
    }
    assert shifted == direct;
  }

  /** Python's `s.find(sep)`: the first index at which `sep` occurs, if any. */
  function Find(s: string, sep: string): (r: Option<nat>)
    requires |sep| > 0
    ensures r.Some? ==> OccursAt(s, sep, r.value)
    ensures r.Some? ==> forall j: nat :: j < r.value ==> !OccursAt(s, sep, j)
    ensures r.None? ==> !Contains(s, sep)
    decreases |s|
  {
    if |s| < |sep| then None
    else if s[..|sep|] == sep then Some(0)
    else
      var rest := Find(s[1..], sep);
      assert forall j: nat :: OccursAt(s, sep, j + 1) <==> OccursAt(s[1..], sep, j) by {
        forall j: nat ensures OccursAt(s, sep, j + 1) <==> OccursAt(s[1..], sep, j) {
          if j + 1 + |sep| <= |s| {
            SliceOfTail(s, j, |sep|);
          }
        }
      }
      assert !OccursAt(s, sep, 0);
      if rest.None? then
        assert forall j: nat :: !OccursAt(s, sep, j) by {
          forall j: nat ensures !OccursAt(s, sep, j) {
            if j > 0 { assert !OccursAt(s[1..], sep, j - 1); }
          }
        }
        None
      else
        assert forall j: nat :: j < rest.value + 1 ==> !OccursAt(s, sep, j) by {
          forall j: nat | j < rest.value + 1 ensures !OccursAt(s, sep, j) {
            if j > 0 { assert !OccursAt(s[1..], sep, j - 1); }
          }
        }
        Some(rest.value + 1)
  }

  /** Python's `sep.join(parts)`. */
  function Join(parts: seq<string>, sep: string): string
    requires |parts| > 0
  {
    if |parts| == 1 then parts[0]
    else parts[0] + sep + Join(parts[1..], sep)
  }

  /**
   * Python's `s.split(sep)` for a non-empty separator: cuts at every
   * occurrence found scanning left to right, never overlapping.
   */
  function Split(s: string, sep: string): (parts: seq<string>)
    requires |sep| > 0
    ensures |parts| > 0
    decreases |s|
  {
    match Find(s, sep)
    case None => [s]
    case Some(i) => [s[..i]] + Split(s[i + |sep|..], sep)
  }

  /**
   * A string splits into one part, itself, exactly when `Find` finds no
   * separator in it (which is exactly when it contains none,
   * `FindIffContains`).
   */
  lemma SplitWhole(s: string, sep: string)
    requires |sep| > 0
    ensures |Split(s, sep)| == 1 <==> Find(s, sep).None?
    ensures |Split(s, sep)| == 1 ==> Split(s, sep)[0] == s
  {
    var parts := Split(s, sep);
    if Find(s, sep).Some? {
      var i := Find(s, sep).value;
      var rest := Split(s[i + |sep|..], sep);
      assert parts == [s[..i]] + rest && |rest| > 0;
    } else {
      assert parts == [s];
    }
  }

  /**
   * `str.split` cuts at the leftmost occurrence: when a string splits into
   * more than one part, the first part ends where `Find` finds the
   * separator and the rest is the split of what follows it.
   */
  lemma SplitCutsLeftmost(s: string, sep: string)
    requires |sep| > 0
    ensures |Split(s, sep)| > 1 ==>
      var head := Split(s, sep)[0];
      && Find(s, sep) == Some(|head|)
      && Split(s, sep)[1..] == Split(s[|head| + |sep|..], sep)
  {
    var parts := Split(s, sep);
    if Find(s, sep).Some? {
      var i := Find(s, sep).value;
      var after := s[i + |sep|..];
      var rest := Split(after, sep);
      assert parts == [s[..i]] + rest;
      assert |parts[0]| == i && parts[1..] == rest;
      assert s[|parts[0]| + |sep|..] == after;
    }
  }

  /** `Find` finds an occurrence exactly when there is one. */
  lemma FindIffContains(s: string, sep: string)
    requires |sep| > 0
    ensures Find(s, sep).Some? <==> Contains(s, sep)
  {
    if Find(s, sep).Some? {
      assert OccursAt(s, sep, Find(s, sep).value);
    }
  }

  /** For instance, "x - - y" splits on " - " into "x" and "- y", not into "x -" and "y". */
  lemma SplitLeftmostExample()
    ensures Split("x - - y", " - ") == ["x", "- y"]
  {
    var s, sep := "x - - y", " - ";
    var t, rest := s[1..], s[4..];
    assert t == " - - y" && t[..3] == sep;
    assert Find(t, sep) == Some(0);
    assert s[..3][0] == 'x';
    assert Find(s, sep) == Some(1);
    assert rest == "- y" && rest[..3][0] == '-';
    assert Find(rest[1..], sep) == None;
    assert Find(rest, sep) == None;
    assert s[..1] == "x";
  }

  /** The text before the first occurrence of `sep` does not contain it. */
  lemma BeforeFirstClean(s: string, sep: string, i: nat)
    requires |sep| > 0 && Find(s, sep) == Some(i)
    ensures !Contains(s[..i], sep)
  {
    var head := s[..i];
    forall j: nat | OccursAt(head, sep, j) ensures false {
      assert s[j..j + |sep|] == head[j..j + |sep|];
      assert OccursAt(s, sep, j);
    }
  }

  /** No piece of a split contains the separator. */
  lemma {:induction false} SplitPiecesClean(s: string, sep: string)
    requires |sep| > 0
    ensures forall k :: 0 <= k < |Split(s, sep)| ==> !Contains(Split(s, sep)[k], sep)
    decreases |s|
  {
    match Find(s, sep)
    case None =>
    case Some(i) =>
      var head, rest := s[..i], s[i + |sep|..];
      BeforeFirstClean(s, sep, i);
      SplitPiecesClean(rest, sep);
      var tail := Split(rest, sep);
      var parts := Split(s, sep);
      assert parts == [head] + tail;
      forall k | 0 <= k < |parts| ensures !Contains(parts[k], sep) {
        if k > 0 { assert parts[k] == tail[k - 1]; }
      }
  }

  /** Joining the pieces of a split with the same separator gives back the string. */
  lemma {:induction false} JoinSplit(s: string, sep: string)
    requires |sep| > 0
    ensures Join(Split(s, sep), sep) == s
    decreases |s|
  {
    match Find(s, sep)
    case None =>
    case Some(i) =>
      JoinSplit(s[i + |sep|..], sep);
      var parts := Split(s, sep);
      assert parts[1..] == Split(s[i + |sep|..], sep);
      assert s == s[..i] + sep + s[i + |sep|..];
  }

  /** A field free of the separator's first character ends at the next separator. */
  lemma {:induction false} SplitAfterField(x: string, sep: string, rest: string)
    requires |sep| > 0 && sep[0] !in x
    ensures Split(x + sep + rest, sep) == [x] + Split(rest, sep)
  {
    var s := x + sep + rest;
    assert s[|x|..|x| + |sep|] == sep;
    assert OccursAt(s, sep, |x|);
    var r := Find(s, sep);
    assert forall j :: 0 <= j < |x| ==> s[j] == x[j] != sep[0];
    assert r.value == |x|;
    assert s[..|x|] == x && s[|x| + |sep|..] == rest;
  }

  /** A field free of the separator's first character is not split at all. */
  lemma {:induction false} SplitField(x: string, sep: string)
    requires |sep| > 0 && sep[0] !in x
    ensures Split(x, sep) == [x]
  {
    assert forall j :: 0 <= j < |x| ==> x[j] != sep[0];
  }

  /** Two fields free of the separator's first character split back into those fields. */
  lemma {:induction false} SplitTwo(y: string, z: string, sep: string)
    requires |sep| > 0 && sep[0] !in y && sep[0] !in z
    ensures Split(y + sep + z, sep) == [y, z]
  {
    SplitField(z, sep);
    SplitAfterField(y, sep, z);
  }

  /** Three fields free of the separator's first character split back into those fields. */
  lemma {:induction false} SplitThree(x: string, y: string, z: string, sep: string)
    requires |sep| > 0 && sep[0] !in x && sep[0] !in y && sep[0] !in z
    ensures Split(x + sep + (y + sep + z), sep) == [x, y, z]
  {
    SplitTwo(y, z, sep);
    SplitAfterField(x, sep, y + sep + z);
  }

  /** The stem Python's `s.rsplit('.', 1)[0]` keeps: everything before the last '.', or all of `s`. */
  function BeforeLastDot(s: string): (r: string)
    ensures r == s || (exists i :: 0 <= i < |s| && s[i] == '.' && r == s[..i] && '.' !in s[i + 1..])
    ensures r == s <==> '.' !in s
    decreases |s|
  {
    if |s| == 0 then s
    else if s[|s| - 1] == '.' then s[..|s| - 1]
    else
      var prefix := BeforeLastDot(s[..|s| - 1]);
      if prefix == s[..|s| - 1] then
        assert '.' !in s[..|s| - 1];
        assert forall c :: c in s ==> c in s[..|s| - 1] || c == s[|s| - 1];
        s
      else
        var i :| 0 <= i < |s| - 1 && s[i] == '.' && prefix == s[..|s| - 1][..i] && '.' !in s[..|s| - 1][i + 1..];
        assert s[i + 1..] == s[..|s| - 1][i + 1..] + [s[|s| - 1]];
        assert s[..|s| - 1][..i] == s[..i];
        assert s[i] in s;
        prefix
  }

  /** Cutting at the last '.' of `x + "." + y` keeps `x` when `y` has no '.'. */
  lemma {:induction false} BeforeLastDotOf(x: string, y: string)
    requires '.' !in y
    ensures BeforeLastDot(x + "." + y) == x
  {
    var s := x + "." + y;
    if |y| > 0 {
      assert s[..|s| - 1] == x + "." + y[..|y| - 1];
      BeforeLastDotOf(x, y[..|y| - 1]);
    } else {
      assert s[..|s| - 1] == x;
    }
  }

  /** Python's `c.lower()` on one character; only ASCII letters change. */
  function LowerChar(c: char): char {
    if 'A' <= c <= 'Z' then (c as int + 32) as char else c
  }

  /** Python's `s.lower()` restricted to ASCII case folding. */
  function Lower(s: string): (r: string)
    ensures |r| == |s|
    ensures forall i :: 0 <= i < |s| ==> r[i] == LowerChar(s[i])
  {
    seq(|s|, i requires 0 <= i < |s| => LowerChar(s[i]))
  }

  /**
   * `s.lower().endswith('.wav')` accepts exactly the names whose last four
   * characters are '.', then 'w' or 'W', 'a' or 'A', 'v' or 'V'.
   */
  lemma WavSuffixAnyCase(s: string)
    ensures EndsWith(Lower(s), ".wav") <==>
      |s| >= 4 && s[|s| - 4] == '.' && s[|s| - 3] in "wW" && s[|s| - 2] in "aA" && s[|s| - 1] in "vV"
  {
    if |s| >= 4 {
      var n, low := |s|, Lower(s);
      var tail := low[n - 4..];
      assert tail == [LowerChar(s[n - 4]), LowerChar(s[n - 3]), LowerChar(s[n - 2]), LowerChar(s[n - 1])];
      assert tail == ".wav" <==> tail[0] == '.' && tail[1] == 'w' && tail[2] == 'a' && tail[3] == 'v';
    }
  }
}

=== FILE: wav.dfy ===
/**
 * The byte-level side of playback, shared by both apps: reading the WAV
 * header (`read_wav_header`) and pumping the PCM data to the audio output
 * in chunks (the inner `while True` loop of `main_loop`).
 *
 * A file is its byte string; an open file handle is a byte string plus a
 * position. `file.read(n)` at a position past the end returns no bytes.
 */
module Wav {
  import opened Wrappers

  type byte = x: int | 0 <= x < 256

  /** Size of the canonical RIFF header; PCM data starts here. */
  const HeaderSize: nat := 44
  /** Bytes requested per `file.read` in the playback loop. */
  const ChunkSize: nat := 1024

  /** Python's slice `s[i:j]` for non-negative bounds: out-of-range bounds are clipped. */
  function Slice(s: seq<byte>, i: nat, j: nat): (r: seq<byte>)
    ensures |r| <= |s|
    ensures i <= j <= |s| ==> r == s[i..j]
  {
    var lo := if i < |s| then i else |s|;
    var hi := if j < lo then lo else if j < |s| then j else |s|;
    s[lo..hi]
  }

  /** `file.read(n)` at position `pos`: the bytes read and the new position. */
  function Read(file: seq<byte>, pos: nat, n: nat): (r: (seq<byte>, nat))
    ensures |r.0| <= n
    ensures pos < |file| && n > 0 ==> |r.0| > 0
    ensures r.1 == pos + |r.0|
    ensures pos + n <= |file| ==> r.0 == file[pos..pos + n]
    ensures pos + n > |file| ==> r.0 == Slice(file, pos, |file|)
  {
    var data := Slice(file, pos, pos + n);
    (data, pos + |data|)
  }

  /** Python's `int.from_bytes(bs, 'little')`. */
  function FromLittleEndian(bs: seq<byte>): nat
  {
    if |bs| == 0 then 0 else bs[0] + 256 * FromLittleEndian(bs[1..])
  }

  function Pow256(k: nat): nat
  {
    if k == 0 then 1 else 256 * Pow256(k - 1)
  }

  /** The `k`-byte little-endian encoding of `n`, as a WAV writer stores a field. */
  function ToLittleEndian(n: nat, k: nat): (bs: seq<byte>)
    ensures |bs| == k
  {
    if k == 0 then [] else [n % 256] + ToLittleEndian(n / 256, k - 1)
  }

  /** Decoding what was encoded gives the value back whenever it fits the field. */
  lemma {:induction false} LittleEndianRoundTrip(n: nat, k: nat)
    requires n < Pow256(k)
    ensures FromLittleEndian(ToLittleEndian(n, k)) == n
  {
    if k > 0 {
      LittleEndianRoundTrip(n / 256, k - 1);
      assert ToLittleEndian(n, k)[1..] == ToLittleEndian(n / 256, k - 1);
    }
  }

  /** A decoded field never exceeds the range of its byte width. */
  lemma {:induction false} LittleEndianBound(bs: seq<byte>)
    ensures FromLittleEndian(bs) < Pow256(|bs|)
  {
    if |bs| > 0 {
      LittleEndianBound(bs[1..]);
    }
  }

  /** The unsigned 32-bit little-endian value stored at bytes `i..i+3`. */
  function U32At(file: seq<byte>, i: nat): nat
    requires i + 4 <= |file|
  {
    (file[i] as int) + 256 * (file[i + 1] as int) + 65536 * (file[i + 2] as int)
      + 16777216 * (file[i + 3] as int)
  }

  /** Four bytes decode to the sum of their place values. */
  lemma FourBytes(bs: seq<byte>)
    requires |bs| == 4
    ensures FromLittleEndian(bs) == U32At(bs, 0)
  {
    assert bs[1..][1..][1..][1..] == [];
    assert FromLittleEndian(bs[3..]) == bs[3] as int;
    assert bs[2..][1..] == bs[3..];
    assert FromLittleEndian(bs[2..]) == bs[2] as int + 256 * bs[3] as int;
    assert bs[1..][1..] == bs[2..];
    assert FromLittleEndian(bs[1..]) == bs[1] as int + 256 * FromLittleEndian(bs[2..]);
  }

  /** What `read_wav_header` returns: the (doubled) rate and the position it leaves the file at. */
  datatype Header = Header(rate: nat, position: nat)

  /**
   * `read_wav_header`: seek to 0, read 12 bytes of RIFF descriptor, 24 of
   * format chunk and 8 of data-chunk header, decode `fmt[12:16]` as a
   * little-endian integer and return twice that value. Nothing checks how
   * many bytes the reads returned.
   */
  function ReadWavHeader(file: seq<byte>): (h: Header)
    ensures h.position == if |file| < HeaderSize then |file| else HeaderSize
    ensures |file| >= 28 ==>
      h.rate == 2 * U32At(file, 24)
    ensures 24 < |file| < 28 ==> h.rate == 2 * FromLittleEndian(file[24..])
    ensures |file| <= 24 ==> h.rate == 0
    ensures h.rate % 2 == 0 && h.rate < 2 * Pow256(4)
  {
    var (riff, p1) := Read(file, 0, 12);
    var (fmt, p2) := Read(file, p1, 24);
    var (dataHeader, p3) := Read(file, p2, 8);
    var field := Slice(fmt, 12, 16);
    RateField(file, fmt, field);
    Header(2 * FromLittleEndian(field), p3)
  }

  /** The four bytes `fmt[12:16]` are the file's bytes 24..27, clipped at its end. */
  lemma RateField(file: seq<byte>, fmt: seq<byte>, field: seq<byte>)
    requires fmt == Read(file, Read(file, 0, 12).1, 24).0
    requires field == Slice(fmt, 12, 16)
    ensures |file| >= 28 ==>
      FromLittleEndian(field) == U32At(file, 24)
    ensures |file| <= 24 ==> field == []
    ensures 24 < |file| < 28 ==> field == file[24..]
    ensures FromLittleEndian(field) < Pow256(4)
  {
    if 24 < |file| < 28 {
      assert fmt == file[12..] && field == fmt[12..];
    }
    if |file| >= 28 {
      var end := if |file| < 36 then |file| else 36;
      assert fmt == file[12..end];
      assert |fmt| >= 16 && field == fmt[12..16];
      forall k | 0 <= k < 4 ensures field[k] == file[24 + k] {
        assert field[k] == fmt[12 + k] && fmt[12 + k] == file[12..end][12 + k];
      }
      assert field == file[24..28];
      FourBytes(field);
    }
    LittleEndianBound(field);
    if |field| < 4 { PowMonotone(|field|, 4); }
  }

  lemma {:induction false} PowMonotone(i: nat, j: nat)
    requires i <= j
    ensures Pow256(i) <= Pow256(j)
    decreases j
  {
    if i < j { PowMonotone(i, j - 1); }
  }

  /** A header whose sample-rate field holds `rate` reads back as `2 * rate`. */
  lemma HeaderOfRate(file: seq<byte>, rate: nat)
    requires |file| >= HeaderSize && rate < Pow256(4)
    requires file[24..28] == ToLittleEndian(rate, 4)
    ensures ReadWavHeader(file) == Header(2 * rate, HeaderSize)
  {
    LittleEndianRoundTrip(rate, 4);
    var bs := file[24..28];
    FourBytes(bs);
    assert FromLittleEndian(bs) == U32At(file, 24);
  }

  /** Concatenation of a list of chunks. */
  function Concat(chunks: seq<seq<byte>>): seq<byte>
  {
    if |chunks| == 0 then [] else chunks[0] + Concat(chunks[1..])
  }

  /** After `k` polls have come back empty, the key press (if any) is that much closer. */
  function Countdown(interrupt: Option<nat>): Option<nat>
  {
    match interrupt
    case None => None
    case Some(k) => if k == 0 then None else Some(k - 1)
  }

  /**
   * The playback loop from file position `pos`: read up to 1024 bytes, stop
   * on an empty read, write the chunk, then poll the keyboard and stop if a
   * key was pressed. `interrupt == Some(k)` means the poll after the `k`-th
   * write (counting from 0) sees a key; `None` means no key is pressed.
   * The result is the sequence of chunks handed to the audio output.
   */
  function Pump(file: seq<byte>, pos: nat, interrupt: Option<nat>): (chunks: seq<seq<byte>>)
    ensures chunks == [] <==> pos >= |file|
    ensures forall i :: 0 <= i < |chunks| ==> 0 < |chunks[i]| <= ChunkSize
    decreases |file| - pos
  {
    var (data, next) := Read(file, pos, ChunkSize);
    if |data| == 0 then []
    else if interrupt == Some(0) then [data]
    else
      var rest := Pump(file, next, Countdown(interrupt));
      assert forall i :: 1 <= i < 1 + |rest| ==> ([data] + rest)[i] == rest[i - 1];
      [data] + rest
  }

  /** Every chunk is non-empty and at most 1024 bytes; all but the last are exactly 1024. */
  ghost predicate WellSized(chunks: seq<seq<byte>>) {
    && (forall i :: 0 <= i < |chunks| ==> 0 < |chunks[i]| <= ChunkSize)
    && (forall i :: 0 <= i < |chunks| - 1 ==> |chunks[i]| == ChunkSize)
  }

  /** The playback loop only ever writes well-sized chunks. */
  lemma {:induction false} PumpChunkSizes(file: seq<byte>, pos: nat, interrupt: Option<nat>)
    ensures WellSized(Pump(file, pos, interrupt))
    decreases |file| - pos
  {
    var (data, next) := Read(file, pos, ChunkSize);
    if |data| > 0 && interrupt != Some(0) {
      var rest := Pump(file, next, Countdown(interrupt));
      PumpChunkSizes(file, next, Countdown(interrupt));
      var chunks := Pump(file, pos, interrupt);
      assert chunks == [data] + rest;
      if |rest| > 0 {
        assert next < |file|;
        assert |data| == ChunkSize;
      }
      forall i | 0 <= i < |chunks| ensures 0 < |chunks[i]| <= ChunkSize {
        if i > 0 { assert chunks[i] == rest[i - 1]; }
      }
      forall i | 0 <= i < |chunks| - 1 ensures |chunks[i]| == ChunkSize {
        if i > 0 { assert chunks[i] == rest[i - 1]; }
      }
    }
  }

  /** Without a key press the chunks written are exactly the file from `pos` to its end. */
  lemma {:induction false} PumpWritesRest(file: seq<byte>, pos: nat)
    requires pos <= |file|
    ensures Concat(Pump(file, pos, None)) == file[pos..]
    decreases |file| - pos
  {
    var (data, next) := Read(file, pos, ChunkSize);
    if |data| > 0 {
      PumpWritesRest(file, next);
      assert [data] + Pump(file, next, None) == Pump(file, pos, None);
      assert Concat(Pump(file, pos, None)) == data + Concat(Pump(file, next, None));
      assert file[pos..] == data + file[next..];
    }
  }

  /** With a key press seen at poll `k`, what was written is a prefix of the rest of the file. */
  lemma {:induction false} PumpInterruptedPrefix(file: seq<byte>, pos: nat, k: nat)
    requires pos <= |file|
    ensures Concat(Pump(file, pos, Some(k))) <= file[pos..]
    decreases |file| - pos
  {
    var (data, next) := Read(file, pos, ChunkSize);
    if |data| > 0 {
      assert file[pos..] == data + file[next..];
      if k > 0 {
        PumpInterruptedPrefix(file, next, k - 1);
        var rest := Pump(file, next, Some(k - 1));
        assert Pump(file, pos, Some(k)) == [data] + rest;
        assert Concat([data] + rest) == data + Concat(rest);
      } else {
        assert Concat([data]) == data;
      }
    }
  }

  /** With a key press seen at poll `k`, at most `k + 1` chunks are written. */
  lemma {:induction false} PumpInterruptedCount(file: seq<byte>, pos: nat, k: nat)
    ensures |Pump(file, pos, Some(k))| <= k + 1
    decreases |file| - pos
  {
    var (data, next) := Read(file, pos, ChunkSize);
    if |data| > 0 && k > 0 {
      PumpInterruptedCount(file, next, k - 1);
    }
  }

  /** Where the bytes written before a key press seen at poll `k` stop: after `k + 1` chunks, or at the end of the file. */
  function InterruptEnd(file: seq<byte>, pos: nat, k: nat): (end: nat)
    requires pos <= |file|
    ensures pos <= end <= |file|
    ensures end == |file| || end == pos + (k + 1) * ChunkSize
  {
    if pos + (k + 1) * ChunkSize <= |file| then pos + (k + 1) * ChunkSize else |file|
  }

  /** A key press seen at poll `k` writes exactly the file up to `InterruptEnd`. */
  lemma {:induction false} PumpInterruptedExact(file: seq<byte>, pos: nat, k: nat)
    requires pos <= |file|
    ensures Concat(Pump(file, pos, Some(k))) == file[pos..InterruptEnd(file, pos, k)]
    decreases |file| - pos
  {
    var (data, next) := Read(file, pos, ChunkSize);
    var end := InterruptEnd(file, pos, k);
    if |data| == 0 {
      assert pos == |file| && end == pos;
    } else if k == 0 {
      assert Concat([data]) == data;
      assert data == file[pos..next] && next == end;
    } else {
      PumpInterruptedExact(file, next, k - 1);
      var rest := Pump(file, next, Some(k - 1));
      assert Pump(file, pos, Some(k)) == [data] + rest;
      assert Concat([data] + rest) == data + Concat(rest);
      if next < pos + ChunkSize {
        assert next == |file|;
      }
      assert InterruptEnd(file, next, k - 1) == end;
      assert file[pos..end] == data + file[next..end];
    }
  }

  /**
   * With a key press seen at poll `k`, what was written is a prefix of the
   * rest of the file, at most `k + 1` chunks: exactly the first `k + 1`
   * full chunks, or the whole rest when fewer remain.
   */
  lemma PumpInterrupted(file: seq<byte>, pos: nat, k: nat)
    requires pos <= |file|
    ensures var chunks := Pump(file, pos, Some(k));
      var written := Concat(chunks);
      written <= file[pos..] &&
      |chunks| <= k + 1 &&
      written == file[pos..if pos + (k + 1) * ChunkSize <= |file| then pos + (k + 1) * ChunkSize else |file|]
  {
    PumpInterruptedPrefix(file, pos, k);
    PumpInterruptedCount(file, pos, k);
    PumpInterruptedExact(file, pos, k);
  }

  /** Seeking to a position at or past the end writes nothing. */
  lemma PumpPastEnd(file: seq<byte>, pos: nat, interrupt: Option<nat>)
    requires pos >= |file|
    ensures Pump(file, pos, interrupt) == []
  {
  }
}

=== FILE: wrappers.dfy ===
/** Failure-compatible option type shared by every module of the model. */
module Wrappers {

  /** Python's `None` versus a present value. */
  datatype Option<+T> = None | Some(value: T) {

    /** The carried value, or `default` when there is none. */
    function GetOr(default: T): T {
      match this
      case Some(v) => v
      case None => default
    }
  }
}
